=== FILE: README.md ===
# CatchThePhish URL risk scoring, modelled in Dafny

CatchThePhish scores a URL string for phishing risk from its text alone.
The scanner page works in four steps:

1. Trim the input, add `http://` when no scheme is present, and extract 28
   lexical features (`extractFeaturesFromUrl`).
2. Run the logistic-regression model over those features in the order of the
   model's `feature_names` (`predictWithLogistic`).
3. Apply the domain override rules (`applyDomainOverrides` in
   `overrides.js`):
   - a developer-hosting floor of 0.40;
   - a trusted-domain cap of 0.15;
   - a raw-IP floor of 0.85.
4. Map the final probability to SAFE, SUSPICIOUS or DANGEROUS with a colour,
   and build a short explanation and the risk texts (`handleSubmit`,
   `explainShort`, `shortRiskLabel`).

The training data comes from a Python script, `extract_28_features`. It is
meant to compute the same features. The model includes it so that the
places where the two extractors agree, and the places where they differ,
are stated as lemmas.

Modules, one per source unit plus shared vocabulary:

- `Options`, `Text`, `Whitespace`, `Url`, `Patterns`, `Entropy`: shared
  pieces.
  - Counting, splitting and joining.
  - The JavaScript `trim` and Python `strip` whitespace sets.
  - The scheme fix.
  - The regular expressions, written as predicates over positions.
  - The frequency table and Shannon entropy.
- `FeatureSet`: the 28-field feature record, the feature-name order, and
  the formulas both extractors share. `Coherent` lists the relations
  between feature values that hold for every URL.
- `FeatureExtractor`: the browser extractor.
- `BuildFeatures`: the Python extractor and its CSV column order.
- `ExtractorParity`: what the two extractors agree on, and concrete inputs
  on which they differ.
- `JsNumber`: JavaScript numbers as `Finite(real) | NaN`.
  - NaN arises when the coefficient list is shorter than the feature
    vector, because `weights[i]` is then `undefined`.
  - NaN flows through `Math.max`/`Math.min` and is mapped to DANGEROUS.
- `Labels`, `Overrides`, `ModelRunner`, `HeroSection`: the override layer,
  the predictor, the older override function in `model_runner.js`, the
  label mapper, and the submit handler.

Foreign pieces are function parameters:

- The URL parsers are `Parser = string -> Option<ParsedUrl>`, where `None`
  means the parser threw. This covers WHATWG `new URL` and Python
  `urlparse`.
- `Math.log2`/`math.log2` and the logistic function `1 / (1 + e^-x)` are
  parameters of type `real -> real`.

Facts stated about these parameters appear as explicit preconditions.

### What the browser extractor counts over

`feature_extractor.js` line 23 sets `full = url`, where `url` is the trimmed
input before `http://` is added. So `url_length`, the five character counts
and the pattern flags are taken over the trimmed input, not over the
scheme-fixed string:

- `FeatureExtractor.ExtractFeaturesFromUrl` counts over `JsTrim(rawUrl)`.
- `FeatureExtractor.CountsIgnoreAddedScheme` shows that `"a.com/x"` has
  length 7 and one slash.

The Python script counts over the untrimmed input (`full = raw_url`). So
the two `url_length` values differ exactly when the input has surrounding
whitespace (`ExtractorParity.UrlLengthRelation`).

## Model

| member | source | states |
|---|---|---|
| Whitespace.Trim | Frontend-Website/src/js/feature_extractor.js:5 | The trimmed text is the contiguous slice that starts after the maximal leading whitespace run. It neither starts nor ends with whitespace, and everything after it is whitespace. |
| Whitespace.TrimEmptyIff | Frontend-Website/src/components/HeroSection.jsx:120 | Trimming yields the empty string exactly when every character is whitespace. This is the condition under which the page rejects the submission. |
| Whitespace.TrimIdempotent | Frontend-Website/src/components/HeroSection.jsx:141-142 | Trimming twice is trimming once. The page trims, then the extractor trims the already trimmed URL again. |
| Whitespace.CountTrim | Frontend-Website/src/js/feature_extractor.js:35-42 | Counting a character class that contains no whitespace gives the same number before and after trimming. |
| Whitespace.TrimLength | Frontend-Website/src/js/feature_extractor.js:5 | Trimming never lengthens a string. It keeps the length only when it changes nothing, and text with non-space ends is left unchanged. |
| Url.FixSchemeIdempotent | Frontend-Website/src/js/feature_extractor.js:8-11 | The fixed URL always passes the `^[a-zA-Z]+://` test and ends with the original text, so only a prefix is ever added and fixing a fixed URL changes nothing. The extractor and the override step (`overrides.js` line 37) each fix the same trimmed text independently. |
| Text.SplitJoin | Frontend-Website/src/js/feature_extractor.js:48 | Joining the pieces of `split(".")` with the separator gives back the hostname. |
| Text.SplitNoSeparator | Frontend-Website/src/js/feature_extractor.js:48 | No piece of `split(".")` contains a dot, so with the join property the pieces are the maximal dot-free runs. |
| Url.QueryWithMark | build_features_28.py:61 | The query text counts one extra character for `?` when non-empty and is empty otherwise (`search` in the browser). |
| Patterns.UuidHasHexRun | Frontend-Website/src/js/feature_extractor.js:92-99 | Any text matching either UUID pattern also contains a run of six hex digits. So the UUID flag implies the hex flag. |
| Entropy.Frequencies | Frontend-Website/src/js/feature_extractor.js:119-121 | The frequency table has distinct keys and positive counts. Each character maps to its number of occurrences, a key is present exactly when the character occurs, and the counts sum to the length. |
| Entropy.EntropyOfRun | Frontend-Website/src/js/feature_extractor.js:118-129 | A string of one repeated character has entropy 0, given `log2(1) = 0`. |
| Entropy.EntropyOfDistinct | build_features_28.py:28-39 | A string of n pairwise distinct characters has n table entries of count 1, so its entropy is `-log2(1/n)`, that is log2 n bits. |
| Entropy.EntropyOfFourDistinct | build_features_28.py:28-39 | "abcd" has entropy 2, given `log2(0.25) = -2`. |
| FeatureSet.Ratio | Frontend-Website/src/js/feature_extractor.js:102-108 | A ratio with denominator 0 is 0. Otherwise it is non-negative and at most 1 when the numerator does not exceed the denominator. |
| FeatureSet.TldFacts | Frontend-Website/src/js/feature_extractor.js:48-59 | The TLD is no longer than the hostname, and an empty hostname has no labels. A suspicious TLD has 2 to 7 characters. An all-numeric hostname never has a suspicious TLD. |
| FeatureSet.Assemble | Frontend-Website/src/js/feature_extractor.js:20-112 | The shared feature formulas produce a coherent record:<br>- flags are 0 or 1;<br>- multiple-subdomains iff more than one subdomain;<br>- UUID implies hex;<br>- IP implies no suspicious TLD;<br>- counts are bounded by the length;<br>- ratios follow their definitions;<br>- an empty hostname zeroes every host-derived feature.<br>Lengths and the query length (with `?`) come from the parse. Subdomain count, first-subdomain length (the length of the first label when there are more than two), TLD length and suspicious-TLD membership come from the non-empty host labels. The two entropies are the Shannon entropy of the hostname and of the path. `is_https` iff the lower-cased scheme is `https`. Each keyword, encoded, email, hex and UUID flag is 1 exactly when its pattern occurs in the counted text. |
| FeatureExtractor.ExtractFeaturesFromUrl | Frontend-Website/src/js/feature_extractor.js:4-115 | The browser record is coherent:<br>- length, the five counts and all pattern flags are taken over the trimmed input;<br>- hostname, path and query lengths, subdomain count, first-subdomain length, https and TLD flags, digit start and both entropies come from the parse of the scheme-fixed input, or from the `invalid-url.xyz` fallback when parsing throws;<br>- `is_ip` iff the host is non-empty digits and dots;<br>- repeated iff some character that is not a line terminator appears three times in a row. |
| FeatureExtractor.CountsIgnoreAddedScheme | Frontend-Website/src/js/feature_extractor.js:8-29 | For `a.com/x` the added `http://` is not counted: length 7, one slash. |
| BuildFeatures.IpHostnameIsDigitsAndDots | build_features_28.py:41-43 | Every hostname the script calls an IP address (four all-digit dot-separated groups) is also one the browser calls an IP address. |
| BuildFeatures.Extract28Features | build_features_28.py:45-132 | The script's record is coherent:<br>- length, counts and pattern flags are taken over the untrimmed input;<br>- hostname, path and query lengths, subdomain count, first-subdomain length, https and TLD flags, digit start and both entropies come from the parse of the stripped, scheme-fixed input, or from the fallback;<br>- `is_ip` iff exactly four non-empty digit groups;<br>- repeated iff some character other than `\n` appears three times in a row. |
| BuildFeatures.FeatureColumnsCovered | build_features_28.py:154-163 | The CSV header is `url`, `label`, then the 28 feature names. The feature record's keys are exactly the remaining columns: every feature column is present, so none is filled with the default 0, and the record has no other key. |
| BuildFeatures.IpHostnameAcceptsAddress | build_features_28.py:41-43 | `1.2.3.4` is an IP hostname for the script. |
| BuildFeatures.IpHostnameRejectsThreeParts | build_features_28.py:41-43 | `1.2.3` is not an IP hostname for the script. |
| ExtractorParity.CountFeaturesAgree | build_features_28.py:63-70 | The five character counts of the browser and the script agree on every input. Whitespace counts as none of the five classes, so trimming does not change them. |
| ExtractorParity.UrlLengthRelation | build_features_28.py:63-74 | The browser `url_length` is at most the script's, with equality exactly when trimming changes nothing. |
| ExtractorParity.ParsedFeaturesAgree | build_features_28.py:86-130 | When both parsers report the same record, all features computed from the parse agree (lengths, https, subdomains, TLD, first subdomain, digit start, entropies). |
| FeatureExtractor.LaxIpAcceptsNonAddresses | Frontend-Website/src/js/feature_extractor.js:62 | The browser's `is_ip` test accepts `...` and `999.999.999.999`, and rejects the empty hostname. |
| ExtractorParity.ScriptIpImpliesBrowserIp | Frontend-Website/src/js/feature_extractor.js:62 | For the same hostname, a script `is_ip` of 1 implies a browser `is_ip` of 1. |
| ExtractorParity.BrowserIpIsLaxer | Frontend-Website/src/js/feature_extractor.js:62 | `1.2.3` is an IP address for the browser but not for the script. |
| ExtractorParity.RepeatedCarriageReturns | Frontend-Website/src/js/feature_extractor.js:75 | For `a\r\r\rb`, where the run is inside the URL so trimming plays no part, the script's record has the repeated-character flag set and the browser's does not, because JavaScript `.` does not match `\r` and Python `.` does. |
| ExtractorParity.TrailingSpacesRepeat | build_features_28.py:110 | Three trailing spaces set the script's repeated flag. The browser trims them away first, so its flag stays 0. |
| ExtractorParity.DigitRatioCanExceedOne | Frontend-Website/src/js/feature_extractor.js:102-104 | `digit_ratio` divides a count over the whole URL by the hostname length. For `a/12` with hostname `a` it is 2, not a fraction. |
| JsNumber.MaxWith | Frontend-Website/src/js/overrides.js:62 | `Math.max` with a constant keeps NaN. Otherwise the result is at least both arguments and equals one of them. |
| JsNumber.ClampsSaturate | Frontend-Website/src/js/overrides.js:61-93 | Clamping a clamped value with the same bound changes nothing, and both clamps keep the order of finite inputs. |
| JsNumber.MinWith | Frontend-Website/src/js/overrides.js:74 | `Math.min` with a constant keeps NaN. Otherwise the result is at most both arguments and equals one of them. |
| Overrides.TakeUntilDelimiter | Frontend-Website/src/js/overrides.js:40 | The result is the longest prefix with no `/`, `?` or `#`. |
| Overrides.StripHttpPrefix | Frontend-Website/src/js/overrides.js:40 | The input is the result with nothing, `http://` or `https://` put back in front, and it comes back unchanged exactly when it starts with neither prefix. |
| Overrides.FallbackHostnameShape | Frontend-Website/src/js/overrides.js:39-41 | The fallback hostname is no longer than the URL it comes from and contains no `/`, `?`, `#` or upper-case letter. |
| Overrides.FallbackUndoesSchemeFix | Frontend-Website/src/js/overrides.js:35-42 | For an already trimmed input without a scheme, the fallback removes the `http://` the function added. It returns the lower-cased text before the first delimiter. |
| Overrides.MatchIsAtLabelBoundary | Frontend-Website/src/js/overrides.js:44-46 | A host that matches a listed domain without being equal to it ends with a dot followed by that domain, so a look-alike host cannot match. |
| Overrides.LookalikeDoesNotMatch | Frontend-Website/src/js/overrides.js:45 | `evilgoogle.com` does not match `google.com`; `mail.google.com` does. |
| Overrides.DottedQuadHasNoLetter | Frontend-Website/src/js/overrides.js:86 | A hostname of four 1-3 digit groups is non-empty and consists of digits and dots. |
| Overrides.NoLetterNoMatch | Frontend-Website/src/js/overrides.js:44-46 | A hostname without letters matches no list of domains that all start with a letter. |
| Overrides.ApplyRule | Frontend-Website/src/js/overrides.js:61-95 | Each rule's effect:<br>- developer hosting gives `max(p, 0.40)`, with UNVERIFIED, orange and the caution message;<br>- trusted gives `min(p, 0.15)`, with FORCED_SAFE, green and the host message;<br>- IP gives `max(p, 0.85)`, with no label, red and the IP message;<br>- no rule returns the input with no label, colour or message.<br>NaN stays NaN, and a changed probability is one of the three constants. |
| Overrides.ApplyDomainOverrides | Frontend-Website/src/js/overrides.js:48-96 | The first applicable rule wins. Developer hosting (unless the project's own domain): probability `max(p, 0.40)`, UNVERIFIED, orange. Trusted domain: `min(p, 0.15)`, FORCED_SAFE, green, message naming the host. Dotted quad: `max(p, 0.85)`, no label, red. Otherwise the input comes back unchanged with no label, colour or message. NaN stays NaN, and a changed probability is one of the three constants. |
| Overrides.OverridesIdempotent | Frontend-Website/src/js/overrides.js:61-93 | Applying the overrides to their own output changes nothing more. |
| Overrides.OverridesMonotone | Frontend-Website/src/js/overrides.js:61-93 | A higher model probability never gives a lower overridden probability. |
| Overrides.OwnSiteIsTrusted | Frontend-Website/src/js/overrides.js:54-81 | The project's own site and its subdomains skip the developer-hosting rule and get the trusted rule. |
| Overrides.OtherVercelSiteIsDevHosted | Frontend-Website/src/js/overrides.js:24-68 | Any other `*.vercel.app` host gets the developer-hosting rule. |
| Overrides.DottedQuadSelectsIpRule | Frontend-Website/src/js/overrides.js:86-93 | A dotted-quad host matches no listed domain, so it always reaches the IP rule. The lax digits-and-dots test also holds of it. |
| ModelRunner.BuildFeatureVector | Frontend-Website/src/js/model_runner.js:15-17 | One entry per model feature name, in order: the record's value, or 0 when the name is missing. |
| ModelRunner.VectorOfFeatureRecord | Frontend-Website/src/js/model_runner.js:15-17 | For a full feature record in model order, the vector has 28 entries, entry i is the record's value under the i-th name, and the vector is the record's fields in declaration order. |
| ModelRunner.WeightAt | Frontend-Website/src/js/model_runner.js:29 | A coefficient read is a number exactly when the index is inside the list. |
| ModelRunner.LinearScore | Frontend-Website/src/js/model_runner.js:22-30 | The loop computes intercept + sum of `w[i]*v[i]`. It is NaN exactly when the coefficient list is shorter than the vector. |
| ModelRunner.WeightedSumUpdate | Frontend-Website/src/js/model_runner.js:27-30 | Raising one feature by `d` changes the score by its coefficient times `d`. |
| ModelRunner.PredictWithLogistic | Frontend-Website/src/js/model_runner.js:22-33 | The prediction is the logistic function of the linear score. It is NaN exactly when there are fewer coefficients than feature names. |
| ModelRunner.ExtractHostname | Frontend-Website/src/js/model_runner.js:62-69 | The result is the empty string when parsing throws, and otherwise has the length of the parsed hostname. |
| ModelRunner.LegacyApplyDomainOverrides | Frontend-Website/src/js/model_runner.js:38-60 | The older override function never raises the probability. An exact trusted host gets `min(p, 0.15)` and "Trusted domain: h". Otherwise a plain-suffix developer host gets `min(p, 0.35)` and "Developer hosting: h". Otherwise nothing changes. NaN stays NaN. |
| ModelRunner.LegacySuffixTestIsLooser | Frontend-Website/src/js/model_runner.js:54-55 | The older suffix test flags `myvercel.app`, which the label-boundary test does not. |
| ModelRunner.LegacyAndCurrentDisagreeOnDevHosts | Frontend-Website/src/js/model_runner.js:54-56 | The two override functions push a developer-hosted URL in opposite directions: at most 0.35 against at least 0.40. |
| ModelRunner.MapProbToLabel | Frontend-Website/src/js/model_runner.js:74-78 | Only the three tier labels are produced, each with its colour. SAFE iff below 0.40; SUSPICIOUS iff from 0.40 up to but excluding 0.70; DANGEROUS otherwise, NaN included. |
| ModelRunner.MapProbToLabelBoundaries | Frontend-Website/src/js/model_runner.js:74-78 | 0.40 is SUSPICIOUS, 0.70 is DANGEROUS, 0 is SAFE, and NaN is DANGEROUS/red. |
| ModelRunner.MapProbToLabelMonotone | Frontend-Website/src/js/model_runner.js:74-78 | Severity never decreases as probability grows. |
| HeroSection.FirstFlaggedBrand | Frontend-Website/src/components/HeroSection.jsx:90-100 | The brand loop with `break` stops at the first brand that appears without `<brand>.com` or `www.<brand>`. No earlier brand qualifies. |
| HeroSection.PushedFacts | Frontend-Website/src/components/HeroSection.jsx:59-100 | After the first n checks the reasons array holds exactly the applying reasons among them, each once, in check order. |
| HeroSection.Reasons | Frontend-Website/src/components/HeroSection.jsx:59-100 | The reasons array holds every applying reason, only those, in push order. |
| HeroSection.ExplainShort | Frontend-Website/src/components/HeroSection.jsx:56-113 | No features gives no explanation. Otherwise it cites the earliest applying reason with the risk tier, or gives a tier summary when no reason applies. |
| HeroSection.TiersAgree | Frontend-Website/src/components/HeroSection.jsx:165-196 | These all use the 0.4/0.7 cut-offs and agree with the displayed label: the explanation risk tier (line 103), the risk label, and the risk text. |
| HeroSection.HandleSubmit | Frontend-Website/src/components/HeroSection.jsx:118-183 | An all-whitespace input is rejected. Otherwise the page shows the trimmed URL and the overridden model probability. The label is always a tier label whose colour and tier both come from that probability, so an override's own label is never shown. The explanation is always a citation or a summary. An override message appears exactly when a rule applied. |
| HeroSection.TrustedDisplaysSafe | Frontend-Website/src/components/HeroSection.jsx:146-177 | With a coefficient per feature name, a trusted host is always shown SAFE in green. |
| HeroSection.IpDisplaysDangerous | Frontend-Website/src/components/HeroSection.jsx:146-177 | A dotted-quad host is always shown DANGEROUS in red. |
| HeroSection.DevHostedNeverSafe | Frontend-Website/src/components/HeroSection.jsx:146-177 | A developer-hosted site is shown SUSPICIOUS or DANGEROUS, never SAFE and never UNVERIFIED. |
| HeroSection.NoRuleShowsModelTier | Frontend-Website/src/components/HeroSection.jsx:146-177 | Without an override the page shows the model's own tier. |

## Left out

- URL parsing:
  - WHATWG `new URL` and Python `urlparse` are parameters.
  - Host normalisation, ports, IDNA, percent-decoding and which inputs make a parser throw belong to the parameter.
  - Python's `hostname` lower-casing belongs to the parameter too.
- `Math.log2`, `math.log2` and `Math.exp` are parameters, and floating-point rounding is not modelled.
  - Probabilities and scores are exact reals, so infinities, overflow and rounding differences between the two extractors' entropy sums do not arise.
  - JavaScript `Object.values` lists digit-like keys first. Python's dict follows insertion order. The sum is the same in exact arithmetic, so the table follows first occurrence.
- Model loading (`loadModelJson`, `ensureModel`), the `onSearch` callback, alerts, busy flags, React state, scrolling effects and JSX markup are left out.
  - The model is a parameter of `HeroSection.HandleSubmit`.
  - The load-failure returns (lines 128-135) and the catch of a prediction error (lines 184-186) are not modelled. Nothing in the modelled pipeline throws.
- Number formatting with `toFixed(1)` is left out. `HeroSection.ExplainShort` returns a structured explanation (reason text and risk tier) instead of the formatted sentence.
- `features._raw` is kept as the separate `raw` field of the annotated record, so `ToMap` does not contain it. A model whose feature names included `_raw` would read a string; this is not modelled.
- Text semantics:
  - Character strings are sequences of code points, not UTF-16 units, so lengths of astral characters and the surrogate behaviour of JavaScript `.` are not modelled.
  - `toLowerCase`/`re.I` are ASCII-only.
  - Python `\d` and `isdigit` are limited to ASCII digits.
- `Number(f[name] || 0)` also turns other falsy values (NaN, "") into 0. Feature values here are always numbers, so only the missing-name case is modelled.
- `ModelRunner.BuildFeatureVector`: the record is a map of its own keys only, so a name that JavaScript would find on `Object.prototype` (`constructor`, `toString`, `__proto__`) gives 0 here, where `Number(f[name] || 0)` gives NaN. The feature names are assumed to be the 28 trained column names, which is what `train.py` exports from `X.columns`.
- `String(url || "")` for non-string input is left out: the input is a string.
- The CSV reading and writing of `build_features_28.py`'s `main`, `generate_dataset.py`, `train.py` and the presentational components are out of scope. Only the column order is modelled.
- `ModelRunner.PredictWithLogistic`: does not state the range (0, 1) of the probability, because the logistic function is a parameter.
- `Entropy.EntropyOfRun`: entropy is stated for two shapes: a run of one repeated character (`EntropyOfRun`, entropy 0) and a string of n pairwise-distinct characters (`EntropyOfDistinct`, entropy `-log2(1/n)`). The general bound `0 <= entropy <= log2 |s|` for arbitrary strings would need facts about `log2` (monotonicity, concavity) that the model does not assume, because `log2` is a parameter.
- `ModelRunner.ExtractHostname`: states the length of the parsed hostname, not its lower-cased content character by character.
- `HeroSection.HandleSubmit`: the `typeof overrideRes.prob === "number"` test is always true for the override function used. So the final probability is the override's probability, and the `rawProb` fallback branch is not modelled separately.

=== FILE: build_features.dfy ===
/** `extract_28_features`, the training-script extractor. It strips the input
    only for parsing; lengths, counts and pattern flags run over the raw,
    unstripped input. Its IP test is strict (four dot-separated digit runs)
    and its regular-expression `.` rejects only '\n'. */
module BuildFeatures {

  import opened Options
  import opened Text
  import opened Whitespace
  import opened Url
  import opened Patterns
  import opened FeatureSet
  import Entropy

  /** `re.fullmatch(r'\d+(?:\.\d+){3}', hostname)`: exactly four dot-separated
      pieces, each a non-empty run of digits. */
  predicate IsIpHostname(hostname: string)
  {
    var parts := Split(hostname, '.');
    |parts| == 4 && forall i :: 0 <= i < 4 ==> |parts[i]| > 0 && AllDigits(parts[i])
  }

  /** The strict test implies the browser's lax `^[0-9.]+$` test. */
  lemma IpHostnameIsDigitsAndDots(hostname: string)
    requires IsIpHostname(hostname)
    ensures DigitsAndDots(hostname)
  {
    var parts := Split(hostname, '.');
    SplitJoin(hostname, '.');
    JoinOfDigits(parts, '.');
    assert Join(parts, '.') == parts[0] + ['.'] + Join(parts[1..], '.');
  }

  /** What `urlparse(fixed)` reports for the stripped, scheme-fixed input, or
      what it reports for "http://invalid-url.xyz" when that raises. */
  function ScriptParse(rawUrl: string, parse: Parser): ParsedUrl
  {
    match parse(FixScheme(PyStrip(rawUrl)))
    case Some(p) => p
    case None => ScriptFallback
  }

  function Extract28Features(rawUrl: string, parse: Parser, log2: real -> real): (f: Features)
    ensures Coherent(f)
    ensures f.urlLength == |rawUrl|
    ensures f.hostnameLength == |ScriptParse(rawUrl, parse).hostname|
    ensures f.countDots == Count(rawUrl, IsDot)
    ensures f.countHyphens == Count(rawUrl, IsHyphen)
    ensures f.countDigits == Count(rawUrl, IsDigit)
    ensures f.countSpecialChars == Count(rawUrl, IsSpecialChar)
    ensures f.countSlashes == Count(rawUrl, IsSlash)
    ensures f.isIp == 1 <==> IsIpHostname(ScriptParse(rawUrl, parse).hostname)
    ensures f.containsRepeatedChars == 1 <==> HasTriple(rawUrl, IsPyNewline)
    ensures f.startsWithNumber == 1 <==> StartsWithDigit(ScriptParse(rawUrl, parse).hostname)
    ensures f.pathLength == |ScriptParse(rawUrl, parse).path|
    ensures f.queryLength == |QueryWithMark(ScriptParse(rawUrl, parse))|
    ensures f.subdomainCount == SubdomainCount(HostParts(ScriptParse(rawUrl, parse).hostname))
    ensures f.firstSubdomainLength == FirstSubdomainLength(HostParts(ScriptParse(rawUrl, parse).hostname))
    ensures f.entropyHostname == Entropy.ShannonEntropy(ScriptParse(rawUrl, parse).hostname, log2)
    ensures f.entropyPath == Entropy.ShannonEntropy(ScriptParse(rawUrl, parse).path, log2)
    ensures PatternFlags(f, rawUrl) && HostFlags(f, ScriptParse(rawUrl, parse))
  {
    var parsed := ScriptParse(rawUrl, parse);
    var ip := IsIpHostname(parsed.hostname);
    if ip then
      IpHostnameIsDigitsAndDots(parsed.hostname);
      Assemble(rawUrl, parsed, ip, HasTriple(rawUrl, IsPyNewline), log2)
    else
      Assemble(rawUrl, parsed, ip, HasTriple(rawUrl, IsPyNewline), log2)
  }

  /** The columns of the training table: the URL, its label, then the 28
      features in model order. */
  const FieldNames: seq<string> := ["url", "label"] + FeatureNames

  /** Every column except "url" and "label" is filled from the feature
      record, and the record supplies nothing else. */
  lemma FeatureColumnsCovered(f: Features)
    ensures FieldNames[..2] == ["url", "label"]
    ensures forall i :: 2 <= i < |FieldNames| ==> FieldNames[i] in ToMap(f)
    ensures forall k :: k in ToMap(f) ==> k in FieldNames[2..]
  {
  }

  /** "1.2.3.4" is an IP hostname. */
  lemma IpHostnameAcceptsAddress()
    ensures IsIpHostname("1.2.3.4")
  {
  }

  /** "1.2.3" has three pieces, so it is not an IP hostname. */
  lemma IpHostnameRejectsThreeParts()
    ensures !IsIpHostname("1.2.3")
  {
  }
}

=== FILE: entropy.dfy ===
/** Shannon entropy of a string, as computed by `computeEntropy` in the
    browser and `shannon_entropy` in the training script. The character
    frequency table is modelled exactly; the logarithm is a parameter, since
    `Math.log2`/`math.log2` are floating-point library calls. Probabilities
    are exact reals, so the order in which the terms are added does not
    matter (JavaScript visits integer-like keys first, Python insertion order). */
module Entropy {

  /** How many times `c` occurs in `s`. */
  function Occurrences(s: string, c: char): nat
  {
    if |s| == 0 then 0 else (if s[0] == c then 1 else 0) + Occurrences(s[1..], c)
  }

  lemma {:induction false} OccurrencesSnoc(s: string, x: char, c: char)
    ensures Occurrences(s + [x], c) == Occurrences(s, c) + (if x == c then 1 else 0)
  {
    if |s| > 0 {
      assert (s + [x])[1..] == s[1..] + [x];
      OccurrencesSnoc(s[1..], x, c);
    }
  }

  /** A frequency table: characters with their counts, in first-seen order. */
  type Table = seq<(char, nat)>

  predicate HasKey(t: Table, c: char)
  {
    exists i | 0 <= i < |t| :: t[i].0 == c
  }

  predicate DistinctKeys(t: Table)
  {
    forall i, j :: 0 <= i < j < |t| ==> t[i].0 != t[j].0
  }

  /** The count recorded for `c`, or 0 when `c` is not in the table. */
  function Lookup(t: Table, c: char): nat
  {
    if |t| == 0 then 0 else if t[0].0 == c then t[0].1 else Lookup(t[1..], c)
  }

  /** Sum of all counts. */
  function Total(t: Table): nat
  {
    if |t| == 0 then 0 else t[0].1 + Total(t[1..])
  }

  predicate PositiveCounts(t: Table)
  {
    forall i :: 0 <= i < |t| ==> t[i].1 > 0
  }

  /** One iteration of `freq[c] = (freq[c] || 0) + 1`: the first entry for
      `c` gains one, or `(c, 1)` is appended when `c` is new. */
  function Bump(t: Table, c: char): Table
  {
    if |t| == 0 then [(c, 1)]
    else if t[0].0 == c then [(c, t[0].1 + 1)] + t[1..]
    else [t[0]] + Bump(t[1..], c)
  }

  lemma HasKeyCons(x: (char, nat), t: Table, d: char)
    ensures HasKey([x] + t, d) <==> x.0 == d || HasKey(t, d)
  {
    var r := [x] + t;
    if HasKey(t, d) {
      var i :| 0 <= i < |t| && t[i].0 == d;
      assert r[i + 1].0 == d;
    }
    if HasKey(r, d) && x.0 != d {
      var i :| 0 <= i < |r| && r[i].0 == d;
      assert r[0] == x;
      assert i > 0;
      assert r[i] == t[i - 1];
    }
  }

  /** Bumping `c` adds one to the count of `c` and leaves every other count
      as it was. */
  lemma {:induction false} BumpLookup(t: Table, c: char, d: char)
    ensures Lookup(Bump(t, c), d) == Lookup(t, d) + (if d == c then 1 else 0)
  {
    if |t| > 0 && t[0].0 != c {
      var r := [t[0]] + Bump(t[1..], c);
      assert r[1..] == Bump(t[1..], c);
      BumpLookup(t[1..], c, d);
    } else if |t| > 0 {
      assert ([(c, t[0].1 + 1)] + t[1..])[1..] == t[1..];
    }
  }

  lemma {:induction false} BumpKeys(t: Table, c: char, d: char)
    ensures HasKey(Bump(t, c), d) <==> HasKey(t, d) || d == c
  {
    if |t| == 0 {
      assert Bump(t, c)[0].0 == c;
    } else if t[0].0 == c {
      assert t == [t[0]] + t[1..];
      HasKeyCons(t[0], t[1..], d);
      HasKeyCons((c, t[0].1 + 1), t[1..], d);
    } else {
      assert t == [t[0]] + t[1..];
      HasKeyCons(t[0], t[1..], d);
      HasKeyCons(t[0], Bump(t[1..], c), d);
      BumpKeys(t[1..], c, d);
    }
  }

  lemma {:induction false} BumpDistinct(t: Table, c: char)
    requires DistinctKeys(t)
    ensures DistinctKeys(Bump(t, c))
  {
    if |t| > 0 && t[0].0 != c {
      var tail := Bump(t[1..], c);
      BumpDistinct(t[1..], c);
      var r := [t[0]] + tail;
      forall i, j | 0 <= i < j < |r| ensures r[i].0 != r[j].0 {
        if i == 0 {
          BumpKeys(t[1..], c, tail[j - 1].0);
          assert HasKey(tail, tail[j - 1].0);
          if HasKey(t[1..], tail[j - 1].0) {
            var k :| 0 <= k < |t[1..]| && t[1..][k].0 == tail[j - 1].0;
            assert t[k + 1].0 == tail[j - 1].0;
          }
        } else {
          assert r[i] == tail[i - 1] && r[j] == tail[j - 1];
        }
      }
    }
  }

  lemma {:induction false} BumpTotal(t: Table, c: char)
    ensures Total(Bump(t, c)) == Total(t) + 1
    ensures PositiveCounts(t) ==> PositiveCounts(Bump(t, c))
  {
    if |t| > 0 && t[0].0 != c {
      var r := [t[0]] + Bump(t[1..], c);
      assert r[1..] == Bump(t[1..], c);
      BumpTotal(t[1..], c);
    } else if |t| > 0 {
      assert ([(c, t[0].1 + 1)] + t[1..])[1..] == t[1..];
    }
  }

  /** The table `computeEntropy` builds by scanning `s` left to right: one
      entry per distinct character, holding that character's number of
      occurrences, with counts adding up to the length of `s`. */
  function Frequencies(s: string): (t: Table)
    ensures DistinctKeys(t)
    ensures PositiveCounts(t)
    ensures forall d :: Lookup(t, d) == Occurrences(s, d)
    ensures forall d :: HasKey(t, d) <==> Occurrences(s, d) > 0
    ensures Total(t) == |s|
  {
    if |s| == 0 then
      []
    else
      var front, last := s[..|s| - 1], s[|s| - 1];
      assert s == front + [last];
      var prev := Frequencies(front);
      var t := Bump(prev, last);
      BumpDistinct(prev, last);
      BumpTotal(prev, last);
      assert forall d :: Lookup(t, d) == Occurrences(s, d) && (HasKey(t, d) <==> Occurrences(s, d) > 0) by {
        forall d ensures Lookup(t, d) == Occurrences(s, d) && (HasKey(t, d) <==> Occurrences(s, d) > 0) {
          OccurrencesSnoc(front, last, d);
          BumpLookup(prev, last, d);
          BumpKeys(prev, last, d);
        }
      }
      t
  }

  /** Sum over the table of `-p * log2(p)` with `p = count / n`. */
  function EntropyTerms(t: Table, n: nat, log2: real -> real): real
    requires n > 0
  {
    if |t| == 0 then 0.0
    else
      var p := t[0].1 as real / n as real;
      -p * log2(p) + EntropyTerms(t[1..], n, log2)
  }

  /** Shannon entropy in bits; 0 for the empty string. */
  function ShannonEntropy(s: string, log2: real -> real): real
  {
    if |s| == 0 then 0.0 else EntropyTerms(Frequencies(s), |s|, log2)
  }

  /** A string made of one repeated character has a single table entry. */
  lemma {:induction false} FrequenciesOfRun(s: string)
    requires |s| > 0
    requires forall i :: 0 <= i < |s| ==> s[i] == s[0]
    ensures Frequencies(s) == [(s[0], |s|)]
  {
    if |s| > 1 {
      var front := s[..|s| - 1];
      FrequenciesOfRun(front);
    }
  }

  /** A string of one repeated character (such as "aaaa") carries no
      information: its entropy is 0 whenever log2(1) = 0. */
  lemma EntropyOfRun(s: string, log2: real -> real)
    requires |s| > 0
    requires forall i :: 0 <= i < |s| ==> s[i] == s[0]
    requires log2(1.0) == 0.0
    ensures ShannonEntropy(s, log2) == 0.0
  {
    FrequenciesOfRun(s);
    var t := Frequencies(s);
    assert t[1..] == [];
    assert |s| as real / |s| as real == 1.0;
    assert EntropyTerms(t, |s|, log2) == -1.0 * log2(1.0) + EntropyTerms(t[1..], |s|, log2);
  }

  /** No character occurs twice. */
  predicate DistinctChars(s: string)
  {
    forall i, j :: 0 <= i < j < |s| ==> s[i] != s[j]
  }

  lemma {:induction false} OccurrencesOfDistinct(s: string, c: char)
    requires DistinctChars(s)
    ensures Occurrences(s, c) == (if c in s then 1 else 0)
  {
    if |s| > 0 {
      assert s == [s[0]] + s[1..];
      OccurrencesOfDistinct(s[1..], c);
    }
  }

  /** With distinct keys, the count at position `i` is the count looked up
      for its key. */
  lemma {:induction false} LookupAt(t: Table, i: nat)
    requires DistinctKeys(t) && i < |t|
    ensures Lookup(t, t[i].0) == t[i].1
  {
    if i > 0 {
      assert t[1..][i - 1] == t[i];
      LookupAt(t[1..], i - 1);
    }
  }

  lemma {:induction false} TotalOfOnes(t: Table)
    requires forall i :: 0 <= i < |t| ==> t[i].1 == 1
    ensures Total(t) == |t|
  {
    if |t| > 0 {
      TotalOfOnes(t[1..]);
    }
  }

  lemma {:induction false} EntropyTermsOfOnes(t: Table, n: nat, log2: real -> real)
    requires n > 0
    requires forall i :: 0 <= i < |t| ==> t[i].1 == 1
    ensures EntropyTerms(t, n, log2) == |t| as real * (-(1.0 / n as real) * log2(1.0 / n as real))
  {
    if |t| > 0 {
      assert t[0].1 as real / n as real == 1.0 / n as real;
      EntropyTermsOfOnes(t[1..], n, log2);
    }
  }

  /** A string of `n` distinct characters has `n` equally likely symbols, so
      its entropy is `-log2(1/n)`, that is `log2 n` bits. */
  lemma EntropyOfDistinct(s: string, log2: real -> real)
    requires |s| > 0 && DistinctChars(s)
    ensures ShannonEntropy(s, log2) == -log2(1.0 / |s| as real)
  {
    var t := Frequencies(s);
    forall i | 0 <= i < |t| ensures t[i].1 == 1 {
      LookupAt(t, i);
      OccurrencesOfDistinct(s, t[i].0);
    }
    TotalOfOnes(t);
    EntropyTermsOfOnes(t, |s|, log2);
    var n := |s| as real;
    assert n * (-(1.0 / n) * log2(1.0 / n)) == -log2(1.0 / n);
  }

  /** Four equally likely symbols ("abcd") carry two bits whenever
      log2(1/4) = -2. */
  lemma EntropyOfFourDistinct(log2: real -> real)
    requires log2(0.25) == -2.0
    ensures ShannonEntropy("abcd", log2) == 2.0
  {
    EntropyOfDistinct("abcd", log2);
    assert 1.0 / 4 as real == 0.25;
  }
}

=== FILE: extractor_parity.dfy ===
/** How the browser extractor and the training-script extractor relate. The
    model is trained on the script's features and applied to the browser's,
    so every place where they can differ is a place where the deployed
    scores can drift from the trained ones. */
module ExtractorParity {

  import opened Options
  import opened Text
  import opened Whitespace
  import opened Url
  import opened Patterns
  import opened FeatureSet
  import opened FeatureExtractor
  import opened BuildFeatures

  /** Trimming removes no dot, hyphen, digit, special character or slash, so
      the five count features are the same in both extractors, although the
      browser counts over the trimmed input and the script over the raw one. */
  lemma {:induction false} CountFeaturesAgree(raw: string, browser: Parser, script: Parser, log2: real -> real)
    ensures ExtractFeaturesFromUrl(raw, browser, log2).countDots == Extract28Features(raw, script, log2).countDots
    ensures ExtractFeaturesFromUrl(raw, browser, log2).countHyphens == Extract28Features(raw, script, log2).countHyphens
    ensures ExtractFeaturesFromUrl(raw, browser, log2).countDigits == Extract28Features(raw, script, log2).countDigits
    ensures ExtractFeaturesFromUrl(raw, browser, log2).countSpecialChars == Extract28Features(raw, script, log2).countSpecialChars
    ensures ExtractFeaturesFromUrl(raw, browser, log2).countSlashes == Extract28Features(raw, script, log2).countSlashes
  {
    CountTrim(raw, IsJsSpace, IsDot);
    CountTrim(raw, IsJsSpace, IsHyphen);
    CountTrim(raw, IsJsSpace, IsDigit);
    CountTrim(raw, IsJsSpace, IsSpecialChar);
    CountTrim(raw, IsJsSpace, IsSlash);
  }

  /** The browser's URL length never exceeds the script's, and the two agree
      exactly when the input has no surrounding whitespace. */
  lemma {:induction false} UrlLengthRelation(raw: string, browser: Parser, script: Parser, log2: real -> real)
    ensures ExtractFeaturesFromUrl(raw, browser, log2).urlLength <= Extract28Features(raw, script, log2).urlLength
    ensures (ExtractFeaturesFromUrl(raw, browser, log2).urlLength == Extract28Features(raw, script, log2).urlLength)
              <==> JsTrim(raw) == raw
  {
  }

  /** When both parsers report the same URL record, every feature derived
      from the hostname, path, query and scheme is the same. */
  lemma ParsedFeaturesAgree(raw: string, browser: Parser, script: Parser, log2: real -> real)
    requires BrowserParse(raw, browser) == ScriptParse(raw, script)
    ensures var b, s := ExtractFeaturesFromUrl(raw, browser, log2), Extract28Features(raw, script, log2);
      && b.hostnameLength == s.hostnameLength && b.pathLength == s.pathLength
      && b.queryLength == s.queryLength && b.isHttps == s.isHttps
      && b.subdomainCount == s.subdomainCount && b.tldLength == s.tldLength
      && b.isSuspiciousTld == s.isSuspiciousTld && b.firstSubdomainLength == s.firstSubdomainLength
      && b.hasMultipleSubdomains == s.hasMultipleSubdomains && b.startsWithNumber == s.startsWithNumber
      && b.entropyHostname == s.entropyHostname && b.entropyPath == s.entropyPath
  {
  }

  /** With the same hostname, the script's strict IP test implies the
      browser's lax one. */
  lemma ScriptIpImpliesBrowserIp(raw: string, browser: Parser, script: Parser, log2: real -> real)
    requires BrowserParse(raw, browser).hostname == ScriptParse(raw, script).hostname
    requires Extract28Features(raw, script, log2).isIp == 1
    ensures ExtractFeaturesFromUrl(raw, browser, log2).isIp == 1
  {
    IpHostnameIsDigitsAndDots(ScriptParse(raw, script).hostname);
  }

  /** The converse fails: "1.2.3" passes the browser's test and not the
      script's. */
  lemma BrowserIpIsLaxer()
    ensures DigitsAndDots("1.2.3") && !IsIpHostname("1.2.3")
  {
  }

  /** `(.)\1\1` differs on carriage returns: a JavaScript `.` rejects '\r'
      and a Python `.` accepts it. The run sits inside the URL, so trimming
      plays no part: the script sets the repeated-character flag and the
      browser does not. */
  lemma RepeatedCarriageReturns(browser: Parser, script: Parser, log2: real -> real)
    ensures HasTriple("a\r\r\rb", IsPyNewline)
    ensures !HasTriple("a\r\r\rb", IsJsLineTerminator)
    ensures Extract28Features("a\r\r\rb", script, log2).containsRepeatedChars == 1
    ensures ExtractFeaturesFromUrl("a\r\r\rb", browser, log2).containsRepeatedChars == 0
  {
    var s := "a\r\r\rb";
    assert TripleAt(s, 1, IsPyNewline);
    assert !IsJsSpace(s[0]) && !IsJsSpace(s[|s| - 1]);
    TrimLength(s, IsJsSpace);
  }

  /** Trailing spaces are counted by the script only: "a   " has three equal
      characters in a row for the script, while the browser sees just "a". */
  lemma TrailingSpacesRepeat()
    ensures HasTriple("a   ", IsPyNewline)
    ensures JsTrim("a   ") == "a"
    ensures !HasTriple(JsTrim("a   "), IsJsLineTerminator)
  {
    assert TripleAt("a   ", 1, IsPyNewline);
    var s := "a   ";
    assert LeadingCount(s, IsJsSpace) == 0;
    assert TrailingCount(s, IsJsSpace) == 3 by {
      assert s[..3] == "a  " && s[..3][..2] == "a " && s[..3][..2][..1] == "a";
      assert TrailingCount("a", IsJsSpace) == 0;
    }
    assert s[0..] == s;
    assert s[..1] == "a";
  }

  lemma ExampleUrlFacts()
    ensures JsTrim("a/12") == "a/12"
    ensures FixScheme("a/12") == "http://a/12"
  {
    var t := "a/12";
    assert !IsJsSpace(t[0]) && !IsJsSpace(t[3]);
    TrimLength(t, IsJsSpace);
    assert LetterRun(t) == 1 by { assert LetterRun(t[1..]) == 0; }
    assert !HasSchemePrefix(t) by { assert t[1..][..3] == "/12"; }
  }

  lemma ExampleDigits()
    ensures Count("a/12", IsDigit) == 2
  {
  }

  /** `digit_ratio` divides digits counted over the whole URL by the
      hostname length, so it is not bounded by 1: "a/12" has two digits
      and a one-character hostname. */
  lemma DigitRatioCanExceedOne(browser: Parser, log2: real -> real)
    requires browser("http://a/12") == Some(ParsedUrl("http", "a", "/12", ""))
    ensures ExtractFeaturesFromUrl("a/12", browser, log2).digitRatio == 2.0
  {
    ExampleUrlFacts();
    ExampleDigits();
    assert BrowserParse("a/12", browser).hostname == "a";
    var f := ExtractFeaturesFromUrl("a/12", browser, log2);
    assert f.countDigits == 2 && f.hostnameLength == 1;
    assert Ratio(2, 1) == 2.0;
  }
}

=== FILE: feature_extractor.dfy ===
/** `extractFeaturesFromUrl`, the browser-side extractor. It trims the input,
    adds "http://" when no scheme is present, parses the result (falling back
    to a placeholder URL when parsing throws), and computes the 28 features.
    Lengths, counts and pattern flags run over the TRIMMED input, not over
    the scheme-fixed text. */
module FeatureExtractor {

  import opened Options
  import opened Text
  import opened Whitespace
  import opened Url
  import opened Patterns
  import opened FeatureSet
  import Entropy

  /** What `new URL(fixedUrl)` reports for the trimmed, scheme-fixed input,
      or what it reports for "http://invalid-url.xyz" when that throws. */
  function BrowserParse(rawUrl: string, parse: Parser): ParsedUrl
  {
    match parse(FixScheme(JsTrim(rawUrl)))
    case Some(p) => p
    case None => BrowserFallback
  }

  function ExtractFeaturesFromUrl(rawUrl: string, parse: Parser, log2: real -> real): (f: Features)
    ensures Coherent(f)
    ensures f.urlLength == |JsTrim(rawUrl)|
    ensures f.hostnameLength == |BrowserParse(rawUrl, parse).hostname|
    ensures f.countDots == Count(JsTrim(rawUrl), IsDot)
    ensures f.countHyphens == Count(JsTrim(rawUrl), IsHyphen)
    ensures f.countDigits == Count(JsTrim(rawUrl), IsDigit)
    ensures f.countSpecialChars == Count(JsTrim(rawUrl), IsSpecialChar)
    ensures f.countSlashes == Count(JsTrim(rawUrl), IsSlash)
    ensures f.isIp == 1 <==> DigitsAndDots(BrowserParse(rawUrl, parse).hostname)
    ensures f.containsRepeatedChars == 1 <==> HasTriple(JsTrim(rawUrl), IsJsLineTerminator)
    ensures f.startsWithNumber == 1 <==> StartsWithDigit(BrowserParse(rawUrl, parse).hostname)
    ensures f.pathLength == |BrowserParse(rawUrl, parse).path|
    ensures f.queryLength == |QueryWithMark(BrowserParse(rawUrl, parse))|
    ensures f.subdomainCount == SubdomainCount(HostParts(BrowserParse(rawUrl, parse).hostname))
    ensures f.firstSubdomainLength == FirstSubdomainLength(HostParts(BrowserParse(rawUrl, parse).hostname))
    ensures f.entropyHostname == Entropy.ShannonEntropy(BrowserParse(rawUrl, parse).hostname, log2)
    ensures f.entropyPath == Entropy.ShannonEntropy(BrowserParse(rawUrl, parse).path, log2)
    ensures PatternFlags(f, JsTrim(rawUrl)) && HostFlags(f, BrowserParse(rawUrl, parse))
  {
    var url := JsTrim(rawUrl);
    var parsed := BrowserParse(rawUrl, parse);
    Assemble(url, parsed, DigitsAndDots(parsed.hostname), HasTriple(url, IsJsLineTerminator), log2)
  }

  /** `is_ip` is lax: any non-empty run of digits and dots counts, so "..."
      and "999.999.999.999" are both reported as IP addresses. */
  lemma LaxIpAcceptsNonAddresses()
    ensures DigitsAndDots("...")
    ensures DigitsAndDots("999.999.999.999")
    ensures !DigitsAndDots("")
  {
  }

  lemma SlashesOfExample()
    ensures Count("a.com/x", IsSlash) == 1
  {
  }

  /** The "http://" added for parsing is not counted: "a.com/x" has URL
      length 7 and one slash, although "http://a.com/x" has three. */
  lemma CountsIgnoreAddedScheme(parse: Parser, log2: real -> real)
    ensures ExtractFeaturesFromUrl("a.com/x", parse, log2).urlLength == 7
    ensures ExtractFeaturesFromUrl("a.com/x", parse, log2).countSlashes == 1
  {
    var t := "a.com/x";
    assert !IsJsSpace(t[0]) && !IsJsSpace(t[6]);
    TrimLength(t, IsJsSpace);
    assert JsTrim(t) == t;
    SlashesOfExample();
    var f := ExtractFeaturesFromUrl(t, parse, log2);
    assert f.urlLength == |JsTrim(t)|;
  }
}

=== FILE: features.dfy ===
/** The 28-feature record both extractors produce, the formulas they share,
    and the relations between feature values that hold for every URL. */
module FeatureSet {

  import opened Text
  import opened Url
  import opened Patterns
  import Entropy

  /** One value per feature name of the model, in the model's order. Flags
      and counts are naturals; ratios and entropies are reals. */
  datatype Features = Features(
    urlLength: nat,
    hostnameLength: nat,
    pathLength: nat,
    queryLength: nat,
    countDots: nat,
    countHyphens: nat,
    countDigits: nat,
    countSpecialChars: nat,
    countSlashes: nat,
    isHttps: nat,
    subdomainCount: nat,
    tldLength: nat,
    isSuspiciousTld: nat,
    isIp: nat,
    firstSubdomainLength: nat,
    hasMultipleSubdomains: nat,
    startsWithNumber: nat,
    containsRepeatedChars: nat,
    containsLoginKeyword: nat,
    containsFinanceKeyword: nat,
    containsEncodedChars: nat,
    containsEmailPattern: nat,
    containsHexPattern: nat,
    containsUuidPattern: nat,
    digitRatio: real,
    specialCharRatio: real,
    entropyHostname: real,
    entropyPath: real)

  /** The feature names, in the column order of the training data. */
  const FeatureNames: seq<string> := [
    "url_length", "hostname_length", "path_length", "query_length",
    "count_dots", "count_hyphens", "count_digits", "count_special_chars", "count_slashes",
    "is_https", "subdomain_count", "tld_length", "is_suspicious_tld", "is_ip",
    "first_subdomain_length", "has_multiple_subdomains", "starts_with_number",
    "contains_repeated_chars", "contains_login_keyword", "contains_finance_keyword",
    "contains_encoded_chars", "contains_email_pattern", "contains_hex_pattern", "contains_uuid_pattern",
    "digit_ratio", "special_char_ratio", "entropy_hostname", "entropy_path"]

  /** The record as the name-to-number object the predictor reads. */
  function ToMap(f: Features): map<string, real>
  {
    map[
      "url_length" := f.urlLength as real, "hostname_length" := f.hostnameLength as real,
      "path_length" := f.pathLength as real, "query_length" := f.queryLength as real,
      "count_dots" := f.countDots as real, "count_hyphens" := f.countHyphens as real,
      "count_digits" := f.countDigits as real, "count_special_chars" := f.countSpecialChars as real,
      "count_slashes" := f.countSlashes as real, "is_https" := f.isHttps as real,
      "subdomain_count" := f.subdomainCount as real, "tld_length" := f.tldLength as real,
      "is_suspicious_tld" := f.isSuspiciousTld as real, "is_ip" := f.isIp as real,
      "first_subdomain_length" := f.firstSubdomainLength as real,
      "has_multiple_subdomains" := f.hasMultipleSubdomains as real,
      "starts_with_number" := f.startsWithNumber as real,
      "contains_repeated_chars" := f.containsRepeatedChars as real,
      "contains_login_keyword" := f.containsLoginKeyword as real,
      "contains_finance_keyword" := f.containsFinanceKeyword as real,
      "contains_encoded_chars" := f.containsEncodedChars as real,
      "contains_email_pattern" := f.containsEmailPattern as real,
      "contains_hex_pattern" := f.containsHexPattern as real,
      "contains_uuid_pattern" := f.containsUuidPattern as real,
      "digit_ratio" := f.digitRatio, "special_char_ratio" := f.specialCharRatio,
      "entropy_hostname" := f.entropyHostname, "entropy_path" := f.entropyPath]
  }

  /** The record's fields in declaration order, which is the order of
      `FeatureNames`. */
  function Values(f: Features): seq<real>
  {
    [f.urlLength as real, f.hostnameLength as real, f.pathLength as real, f.queryLength as real,
     f.countDots as real, f.countHyphens as real, f.countDigits as real, f.countSpecialChars as real,
     f.countSlashes as real, f.isHttps as real, f.subdomainCount as real, f.tldLength as real,
     f.isSuspiciousTld as real, f.isIp as real, f.firstSubdomainLength as real,
     f.hasMultipleSubdomains as real, f.startsWithNumber as real, f.containsRepeatedChars as real,
     f.containsLoginKeyword as real, f.containsFinanceKeyword as real, f.containsEncodedChars as real,
     f.containsEmailPattern as real, f.containsHexPattern as real, f.containsUuidPattern as real,
     f.digitRatio, f.specialCharRatio, f.entropyHostname, f.entropyPath]
  }

  /** The record's keys are exactly the feature names, and the value under
      the i-th name is the i-th field. */
  lemma ToMapHasEveryName(f: Features)
    ensures |Values(f)| == |FeatureNames|
    ensures forall i :: 0 <= i < |FeatureNames| ==>
              FeatureNames[i] in ToMap(f) && ToMap(f)[FeatureNames[i]] == Values(f)[i]
    ensures forall k :: k in ToMap(f) ==> k in FeatureNames
  {
  }

  function Flag(b: bool): nat { if b then 1 else 0 }

  /** `hostname.split(".").filter(Boolean)`: the non-empty dot-separated labels. */
  function HostParts(hostname: string): seq<string>
  {
    NonEmpty(Split(hostname, '.'))
  }

  function SubdomainCount(parts: seq<string>): nat
  {
    if |parts| >= 2 then |parts| - 2 else 0
  }

  /** The last non-empty label, or "" when there is none. */
  function Tld(parts: seq<string>): string
  {
    if |parts| > 0 then parts[|parts| - 1] else ""
  }

  function FirstSubdomainLength(parts: seq<string>): nat
  {
    if |parts| > 2 then |parts[0]| else 0
  }

  const SuspiciousTlds: set<string> := {
    "xyz", "top", "shop", "fit", "loan", "live", "club", "online", "site", "pw",
    "icu", "info", "biz", "click", "win", "country"}

  /** The regular expression `^[0-9.]+$`: non-empty, only digits and dots. */
  predicate DigitsAndDots(s: string)
  {
    |s| > 0 && forall i :: 0 <= i < |s| ==> IsDigit(s[i]) || s[i] == '.'
  }

  /** `hostname[0] >= "0" && hostname[0] <= "9"` in the browser and
      `hostname and hostname[0].isdigit()` in the script (ASCII digits). */
  predicate StartsWithDigit(hostname: string)
  {
    |hostname| > 0 && IsDigit(hostname[0])
  }

  /** `n / d`, or 0 when `d` is 0. */
  function Ratio(n: nat, d: nat): (r: real)
    ensures r >= 0.0
    ensures d == 0 ==> r == 0.0
    ensures n <= d ==> r <= 1.0
  {
    if d == 0 then 0.0
    else
      assert n as real / d as real * d as real == n as real;
      n as real / d as real
  }

  /** Relations between the 28 values that hold for every URL. */
  predicate Coherent(f: Features)
  {
    && f.isHttps <= 1 && f.isSuspiciousTld <= 1 && f.isIp <= 1 && f.hasMultipleSubdomains <= 1
    && f.startsWithNumber <= 1 && f.containsRepeatedChars <= 1 && f.containsLoginKeyword <= 1
    && f.containsFinanceKeyword <= 1 && f.containsEncodedChars <= 1 && f.containsEmailPattern <= 1
    && f.containsHexPattern <= 1 && f.containsUuidPattern <= 1
    && (f.hasMultipleSubdomains == 1 <==> f.subdomainCount > 1)
    && (f.firstSubdomainLength > 0 ==> f.subdomainCount > 0)
    && (f.containsUuidPattern == 1 ==> f.containsHexPattern == 1)
    && (f.isSuspiciousTld == 1 ==> 2 <= f.tldLength <= 7)
    && (f.isIp == 1 ==> f.isSuspiciousTld == 0)
    && f.tldLength <= f.hostnameLength
    && f.countDots <= f.urlLength && f.countHyphens <= f.urlLength && f.countDigits <= f.urlLength
    && f.countSpecialChars <= f.urlLength && f.countSlashes <= f.urlLength
    && f.digitRatio == Ratio(f.countDigits, f.hostnameLength)
    && f.specialCharRatio == Ratio(f.countSpecialChars, f.urlLength)
    && 0.0 <= f.specialCharRatio <= 1.0
    && (f.urlLength == 0 ==> f.specialCharRatio == 0.0)
    && 0.0 <= f.digitRatio
    && (f.hostnameLength == 0 ==>
          && f.digitRatio == 0.0 && f.startsWithNumber == 0 && f.isIp == 0
          && f.subdomainCount == 0 && f.tldLength == 0 && f.isSuspiciousTld == 0
          && f.firstSubdomainLength == 0 && f.entropyHostname == 0.0)
  }

  /** The six pattern flags are the regular-expression tests over `full`. */
  predicate PatternFlags(f: Features, full: string)
  {
    && (f.containsLoginKeyword == 1 <==> HasKeyword(full, LoginKeywords))
    && (f.containsFinanceKeyword == 1 <==> HasKeyword(full, FinanceKeywords))
    && (f.containsEncodedChars == 1 <==> HasEncodedChar(full))
    && (f.containsEmailPattern == 1 <==> HasEmail(full))
    && (f.containsHexPattern == 1 <==> HasHexRun(full))
    && (f.containsUuidPattern == 1 <==> HasUuid(full))
  }

  /** The scheme and top-level-domain features of a parsed URL. */
  predicate HostFlags(f: Features, parsed: ParsedUrl)
  {
    && (f.isHttps == 1 <==> ToLower(parsed.scheme) == "https")
    && f.tldLength == |Tld(HostParts(parsed.hostname))|
    && (f.isSuspiciousTld == 1 <==> Tld(HostParts(parsed.hostname)) in SuspiciousTlds)
  }

  /** Each label of a hostname is no longer than the hostname and uses only
      its characters. */
  lemma HostPartsWithin(hostname: string)
    ensures forall i :: 0 <= i < |HostParts(hostname)| ==> |HostParts(hostname)[i]| <= |hostname|
    ensures forall i, k :: 0 <= i < |HostParts(hostname)| && 0 <= k < |HostParts(hostname)[i]| ==>
              HostParts(hostname)[i][k] in hostname
  {
    var split := Split(hostname, '.');
    SplitPartChars(hostname, '.');
    forall i | 0 <= i < |split| ensures |split[i]| <= |hostname| {
      SplitPartLength(hostname, '.', i);
    }
  }

  /** Every suspicious top-level domain starts with a letter. */
  lemma SuspiciousTldStartsWithLetter(tld: string)
    requires tld in SuspiciousTlds
    ensures 2 <= |tld| <= 7 && IsAsciiLetter(tld[0])
  {
  }

  /** What the label arithmetic guarantees: the top-level domain is no
      longer than the hostname, an empty hostname has no labels, and an
      all-numeric hostname never has a suspicious top-level domain. */
  lemma TldFacts(hostname: string)
    ensures |Tld(HostParts(hostname))| <= |hostname|
    ensures |hostname| == 0 ==> |HostParts(hostname)| == 0
    ensures Tld(HostParts(hostname)) in SuspiciousTlds ==> 2 <= |Tld(HostParts(hostname))| <= 7
    ensures DigitsAndDots(hostname) ==> Tld(HostParts(hostname)) !in SuspiciousTlds
  {
    var parts := HostParts(hostname);
    var tld := Tld(parts);
    HostPartsWithin(hostname);
    if |hostname| == 0 {
      assert Split(hostname, '.') == [""];
    }
    if tld in SuspiciousTlds {
      SuspiciousTldStartsWithLetter(tld);
    }
  }

  /** The 28 formulas both extractors share. `full` is the text the counts and
      pattern flags run over, `parsed` what the URL parser reported, and the
      two flags whose definitions differ between the browser and the script
      (`is_ip` and the three-in-a-row test) are computed by the caller. */
  function Assemble(full: string, parsed: ParsedUrl, ipFlag: bool, tripleFlag: bool, log2: real -> real): (f: Features)
    requires ipFlag ==> DigitsAndDots(parsed.hostname)
    ensures Coherent(f)
    ensures f.urlLength == |full|
    ensures f.hostnameLength == |parsed.hostname| && f.pathLength == |parsed.path|
    ensures f.queryLength == (if parsed.query == "" then 0 else |parsed.query| + 1)
    ensures f.subdomainCount == (if |HostParts(parsed.hostname)| > 2 then |HostParts(parsed.hostname)| - 2 else 0)
    ensures f.firstSubdomainLength > 0 <==> |HostParts(parsed.hostname)| > 2
    ensures |HostParts(parsed.hostname)| > 2 ==> f.firstSubdomainLength == |HostParts(parsed.hostname)[0]|
    ensures f.entropyHostname == Entropy.ShannonEntropy(parsed.hostname, log2)
    ensures f.entropyPath == Entropy.ShannonEntropy(parsed.path, log2)
    ensures f.tldLength == 0 <==> |HostParts(parsed.hostname)| == 0
    ensures f.isIp == 1 <==> ipFlag
    ensures f.containsRepeatedChars == 1 <==> tripleFlag
    ensures PatternFlags(f, full) && HostFlags(f, parsed)
  {
    var hostname := parsed.hostname;
    var parts := HostParts(hostname);
    var tld := Tld(parts);
    var countDigits := Count(full, IsDigit);
    var countSpecial := Count(full, IsSpecialChar);
    var uuid := HasUuid(full);
    var hex := HasHexRun(full);
    var f := Features(
      |full|, |hostname|, |parsed.path|, |QueryWithMark(parsed)|,
      Count(full, IsDot), Count(full, IsHyphen), countDigits, countSpecial, Count(full, IsSlash),
      Flag(ToLower(parsed.scheme) == "https"),
      SubdomainCount(parts), |tld|, Flag(tld in SuspiciousTlds), Flag(ipFlag),
      FirstSubdomainLength(parts), Flag(SubdomainCount(parts) > 1), Flag(StartsWithDigit(hostname)),
      Flag(tripleFlag), Flag(HasKeyword(full, LoginKeywords)), Flag(HasKeyword(full, FinanceKeywords)),
      Flag(HasEncodedChar(full)), Flag(HasEmail(full)), Flag(hex), Flag(uuid),
      Ratio(countDigits, |hostname|), Ratio(countSpecial, |full|),
      Entropy.ShannonEntropy(hostname, log2), Entropy.ShannonEntropy(parsed.path, log2));
    assert Coherent(f) by {
      TldFacts(hostname);
      assert uuid ==> hex by {
        if uuid { UuidHasHexRun(full); }
      }
    }
    f
  }
}

=== FILE: hero_section.dfy ===
/** The scoring composition of the scanner page: trim the input, extract
    features, predict, apply the domain overrides, and derive the displayed
    label, colour, short explanation and risk text from the final
    probability. Number formatting (`toFixed`) is not modelled, so the
    explanation is a structured value carrying the exact reason text and the
    risk tier. */
module HeroSection {

  import opened Options
  import opened Text
  import opened Whitespace
  import opened Url
  import opened JsNumber
  import opened Labels
  import opened FeatureSet
  import opened FeatureExtractor
  import Overrides
  import opened ModelRunner

  /** The features object after `features._raw = cleanUrl`. */
  datatype Annotated = Annotated(features: Features, raw: string)

  /** The reasons `explainShort` can push, in push order. */
  datatype Reason =
    | RawIp
    | EmailInUrl
    | NoHttps
    | ManySubdomains
    | ManyDigits
    | EncodedChars
    | AtSign
    | Impersonation(brand: string)

  function ReasonText(r: Reason): string
  {
    match r
    case RawIp => "URL uses a raw IP address (common in phishing)."
    case EmailInUrl => "Email-like string inside URL (possible data exfiltration)."
    case NoHttps => "URL does not use HTTPS (unsafe connection)."
    case ManySubdomains => "Too many subdomains \U{2014} suspicious domain structure."
    case ManyDigits => "Large number of digits \U{2014} uncommon in real services."
    case EncodedChars => "Contains encoded characters \U{2014} used to hide payloads."
    case AtSign => "Contains '@' which can hide host redirection."
    case Impersonation(b) => "Contains \"" + b + "\" but not the official domain \U{2014} impersonation."
  }

  /** Position of a reason in push order. */
  function Rank(r: Reason): nat
  {
    match r
    case RawIp => 0
    case EmailInUrl => 1
    case NoHttps => 2
    case ManySubdomains => 3
    case ManyDigits => 4
    case EncodedChars => 5
    case AtSign => 6
    case Impersonation(_) => 7
  }

  const Brands: seq<string> := [
    "paypal", "amazon", "google", "apple", "netflix", "facebook",
    "instagram", "bank", "login", "secure", "account", "verify"]

  /** A brand name appears in the lower-cased URL, but neither as
      `<brand>.com` nor as `www.<brand>`. */
  predicate BrandFlagged(lower: string, b: string)
  {
    Contains(lower, b) && !Contains(lower, b + ".com") && !Contains(lower, "www." + b)
  }

  /** The brand loop with its `break`: the index of the first flagged brand,
      or `|brands|` when none is flagged. */
  function FirstFlaggedBrand(lower: string, brands: seq<string>): (k: nat)
    ensures k <= |brands|
    ensures forall j :: 0 <= j < k ==> !BrandFlagged(lower, brands[j])
    ensures k < |brands| ==> BrandFlagged(lower, brands[k])
  {
    if |brands| == 0 then 0
    else if BrandFlagged(lower, brands[0]) then 0
    else
      var k := 1 + FirstFlaggedBrand(lower, brands[1..]);
      assert forall j :: 1 <= j < |brands| ==> brands[j] == brands[1..][j - 1];
      k
  }

  /** When a reason applies to an annotated record. At most one brand
      reason applies: the first flagged brand. */
  predicate Triggered(a: Annotated, r: Reason)
  {
    var f := a.features;
    match r
    case RawIp => f.isIp != 0
    case EmailInUrl => f.containsEmailPattern != 0
    case NoHttps => f.isHttps == 0
    case ManySubdomains => f.subdomainCount > 3
    case ManyDigits => f.countDigits > 6
    case EncodedChars => f.containsEncodedChars != 0
    case AtSign => Contains(a.raw, "@")
    case Impersonation(b) =>
      var k := FirstFlaggedBrand(ToLower(a.raw), Brands);
      k < |Brands| && Brands[k] == b
  }

  /** The reason check number `n` (0 to 7, in source order) pushes, if any. */
  function Candidate(a: Annotated, n: nat): Option<Reason>
    requires n < 8
  {
    var f := a.features;
    if n == 0 then (if f.isIp != 0 then Some(RawIp) else None)
    else if n == 1 then (if f.containsEmailPattern != 0 then Some(EmailInUrl) else None)
    else if n == 2 then (if f.isHttps == 0 then Some(NoHttps) else None)
    else if n == 3 then (if f.subdomainCount > 3 then Some(ManySubdomains) else None)
    else if n == 4 then (if f.countDigits > 6 then Some(ManyDigits) else None)
    else if n == 5 then (if f.containsEncodedChars != 0 then Some(EncodedChars) else None)
    else if n == 6 then (if Contains(a.raw, "@") then Some(AtSign) else None)
    else
      var k := FirstFlaggedBrand(ToLower(a.raw), Brands);
      if k < |Brands| then Some(Impersonation(Brands[k])) else None
  }

  /** A reason applies exactly when its own check pushes it. */
  lemma CandidateMatchesTriggered(a: Annotated, r: Reason)
    ensures Triggered(a, r) <==> Candidate(a, Rank(r)) == Some(r)
  {
  }

  lemma CandidateRank(a: Annotated, n: nat)
    requires n < 8
    ensures Candidate(a, n).Some? ==> Rank(Candidate(a, n).value) == n && Triggered(a, Candidate(a, n).value)
  {
  }

  /** The `reasons` array after the first `n` checks. */
  function Pushed(a: Annotated, n: nat): seq<Reason>
    requires n <= 8
  {
    if n == 0 then []
    else
      match Candidate(a, n - 1)
      case Some(r) => Pushed(a, n - 1) + [r]
      case None => Pushed(a, n - 1)
  }

  /** After `n` checks the array holds exactly the applying reasons of rank
      below `n`, in strictly increasing rank. */
  lemma {:induction false} PushedFacts(a: Annotated, n: nat)
    requires n <= 8
    ensures forall i :: 0 <= i < |Pushed(a, n)| ==> Triggered(a, Pushed(a, n)[i]) && Rank(Pushed(a, n)[i]) < n
    ensures forall i, j :: 0 <= i < j < |Pushed(a, n)| ==> Rank(Pushed(a, n)[i]) < Rank(Pushed(a, n)[j])
    ensures forall r :: Triggered(a, r) && Rank(r) < n ==> r in Pushed(a, n)
  {
    if n > 0 {
      var prev := Pushed(a, n - 1);
      PushedFacts(a, n - 1);
      CandidateRank(a, n - 1);
      match Candidate(a, n - 1)
      case None =>
        assert Pushed(a, n) == prev;
        forall r | Triggered(a, r) && Rank(r) < n ensures r in Pushed(a, n) {
          CandidateMatchesTriggered(a, r);
        }
      case Some(c) =>
        assert Pushed(a, n) == prev + [c];
        forall r | Triggered(a, r) && Rank(r) < n ensures r in Pushed(a, n) {
          CandidateMatchesTriggered(a, r);
        }
    }
  }

  /** The `reasons` array `explainShort` builds: every reason that applies,
      each once, in push order. */
  function Reasons(a: Annotated): (rs: seq<Reason>)
    ensures forall i :: 0 <= i < |rs| ==> Triggered(a, rs[i])
    ensures forall i, j :: 0 <= i < j < |rs| ==> Rank(rs[i]) < Rank(rs[j])
    ensures forall r :: Triggered(a, r) ==> r in rs
  {
    PushedFacts(a, 8);
    Pushed(a, 8)
  }

  datatype Risk = Low | Medium | High

  /** `prob < 0.4 ? "LOW" : prob < 0.7 ? "MEDIUM" : "HIGH"`. */
  function RiskOf(p: Number): Risk
  {
    if Below(p, 0.4) then Low else if Below(p, 0.7) then Medium else High
  }

  /** What `explainShort` says: nothing for absent features, the first
      reason with the risk tier, or a tier summary when no reason applies. */
  datatype Explanation = NoExplanation | Cited(reason: Reason, risk: Risk) | Summary(risk: Risk)

  function SummaryText(r: Risk): string
  {
    match r
    case Low => "No strong phishing signals."
    case Medium => "Some suspicious lexical signals."
    case High => "Strong phishing indicators detected."
  }

  function ExplainShort(features: Option<Annotated>, prob: Number): (e: Explanation)
    ensures features.None? <==> e == NoExplanation
    ensures e.Cited? || e.Summary? ==> e.risk == RiskOf(prob)
    ensures features.Some? && e.Cited? ==>
              && Triggered(features.value, e.reason)
              && forall r :: Triggered(features.value, r) ==> Rank(e.reason) <= Rank(r)
    ensures features.Some? && e.Summary? ==> forall r :: !Triggered(features.value, r)
  {
    match features
    case None => NoExplanation
    case Some(a) =>
      var rs := Reasons(a);
      if |rs| > 0 then
        assert forall r :: Triggered(a, r) ==> exists j :: 0 <= j < |rs| && rs[j] == r;
        Cited(rs[0], RiskOf(prob))
      else Summary(RiskOf(prob))
  }

  /** `shortRiskLabel`. */
  function ShortRiskLabel(p: Number): string
  {
    if Below(p, 0.4) then "Low risk" else if Below(p, 0.7) then "Medium risk" else "High risk"
  }

  /** The `shortInterpText` expression of the submit handler. */
  function ShortInterpText(p: Number): string
  {
    if Below(p, 0.4) then "Low risk \U{2014} appears legitimate based on lexical features."
    else if Below(p, 0.7) then "Medium risk \U{2014} some suspicious signals detected."
    else "High risk \U{2014} avoid entering credentials."
  }

  /** The explanation tier, the risk label, the risk text and the displayed
      label all use the same cut-offs. */
  lemma TiersAgree(p: Number, q: Number)
    ensures RiskOf(p) == Low <==> MapProbToLabel(p).tier == Safe
    ensures RiskOf(p) == Medium <==> MapProbToLabel(p).tier == Suspicious
    ensures RiskOf(p) == High <==> MapProbToLabel(p).tier == Dangerous
    ensures ShortRiskLabel(p) == "Low risk" <==> MapProbToLabel(p).tier == Safe
    ensures ShortRiskLabel(p) == "High risk" <==> MapProbToLabel(p).tier == Dangerous
    ensures MapProbToLabel(p) == MapProbToLabel(q) ==>
              ShortInterpText(p) == ShortInterpText(q) && ShortRiskLabel(p) == ShortRiskLabel(q)
  {
  }

  /** What the page shows after a successful submission. */
  datatype Verdict = Verdict(
    url: string,
    prob: Number,
    tier: Label,
    color: Color,
    features: Features,
    short: Explanation,
    shortInterpText: string,
    overrideMessage: Option<string>)

  datatype Submission = Rejected | Shown(verdict: Verdict)

  /** The model's probability for the trimmed input. */
  function RawProb(clean: string, m: ModelJson, browser: Parser, sigmoid: real -> real, log2: real -> real): Number
  {
    PredictWithLogistic(m, ToMap(ExtractFeaturesFromUrl(clean, browser, log2)), sigmoid)
  }

  /** The rule the overrides select for the trimmed input. */
  function RuleFor(clean: string, browser: Parser): Overrides.Rule
  {
    Overrides.SelectRule(Overrides.GetHostname(clean, browser))
  }

  /** The submit handler from the trimmed input to the displayed result,
      with the model already loaded. */
  function HandleSubmit(input: string, m: ModelJson, browser: Parser, sigmoid: real -> real, log2: real -> real): (s: Submission)
    ensures s.Rejected? <==> forall i :: 0 <= i < |input| ==> IsJsSpace(input[i])
    ensures s.Shown? ==> s.verdict.url == JsTrim(input) && |s.verdict.url| > 0
    ensures s.Shown? ==> IsTierLabel(s.verdict.tier) && s.verdict.color == TierColor(s.verdict.tier)
    ensures s.Shown? ==>
              s.verdict.prob == Overrides.ApplyDomainOverrides(JsTrim(input), RawProb(JsTrim(input), m, browser, sigmoid, log2), browser).prob
    ensures s.Shown? ==> MapProbToLabel(s.verdict.prob) == Mapped(s.verdict.tier, s.verdict.color)
    ensures s.Shown? ==> s.verdict.short.Cited? || s.verdict.short.Summary?
    ensures s.Shown? ==> (s.verdict.overrideMessage == None <==> RuleFor(JsTrim(input), browser) == Overrides.NoRule)
  {
    TrimEmptyIff(input, IsJsSpace);
    var clean := JsTrim(input);
    if clean == [] then Rejected
    else
      var features := ExtractFeaturesFromUrl(clean, browser, log2);
      var rawProb := PredictWithLogistic(m, ToMap(features), sigmoid);
      var o := Overrides.ApplyDomainOverrides(clean, rawProb, browser);
      var finalProb := o.prob;
      var mapped := MapProbToLabel(finalProb);
      Shown(Verdict(clean, finalProb, mapped.tier, mapped.color, features,
        ExplainShort(Some(Annotated(features, clean)), finalProb), ShortInterpText(finalProb), o.message))
  }

  /** A trusted domain always shows SAFE in green when the model's
      coefficient list covers its feature names. */
  lemma TrustedDisplaysSafe(input: string, m: ModelJson, browser: Parser, sigmoid: real -> real, log2: real -> real)
    requires JsTrim(input) != []
    requires |m.coefficients| >= |m.featureNames|
    requires RuleFor(JsTrim(input), browser) == Overrides.TrustedDomain
    ensures HandleSubmit(input, m, browser, sigmoid, log2).Shown?
    ensures HandleSubmit(input, m, browser, sigmoid, log2).verdict.tier == Safe
    ensures HandleSubmit(input, m, browser, sigmoid, log2).verdict.color == Green
  {
  }

  /** A dotted-quad host always shows DANGEROUS in red. */
  lemma IpDisplaysDangerous(input: string, m: ModelJson, browser: Parser, sigmoid: real -> real, log2: real -> real)
    requires JsTrim(input) != []
    requires RuleFor(JsTrim(input), browser) == Overrides.IpAddress
    ensures HandleSubmit(input, m, browser, sigmoid, log2).Shown?
    ensures HandleSubmit(input, m, browser, sigmoid, log2).verdict.tier == Dangerous
    ensures HandleSubmit(input, m, browser, sigmoid, log2).verdict.color == Red
  {
  }

  /** A developer-hosted site is shown SUSPICIOUS or DANGEROUS, never SAFE
      and never with the override's UNVERIFIED label. */
  lemma DevHostedNeverSafe(input: string, m: ModelJson, browser: Parser, sigmoid: real -> real, log2: real -> real)
    requires JsTrim(input) != []
    requires RuleFor(JsTrim(input), browser) == Overrides.DevHosting
    ensures HandleSubmit(input, m, browser, sigmoid, log2).Shown?
    ensures HandleSubmit(input, m, browser, sigmoid, log2).verdict.tier in {Suspicious, Dangerous}
  {
  }

  /** Without an override, the page shows the model's own tier. */
  lemma NoRuleShowsModelTier(input: string, m: ModelJson, browser: Parser, sigmoid: real -> real, log2: real -> real)
    requires JsTrim(input) != []
    requires RuleFor(JsTrim(input), browser) == Overrides.NoRule
    ensures HandleSubmit(input, m, browser, sigmoid, log2).Shown?
    ensures HandleSubmit(input, m, browser, sigmoid, log2).verdict.tier
              == MapProbToLabel(RawProb(JsTrim(input), m, browser, sigmoid, log2)).tier
  {
  }
}

=== FILE: js_numbers.dfy ===
/** The part of JavaScript number semantics the scoring path relies on.
    A probability or score is either a finite value or NaN; NaN arises when
    the predictor reads a coefficient past the end of the coefficient list
    (`undefined * x`). Finite values are exact reals: rounding, overflow and
    infinities are not modelled. */
module JsNumber {

  datatype Number = Finite(value: real) | NaN

  /** `a + b`: NaN when either operand is NaN. */
  function Add(a: Number, b: Number): Number
  {
    if a.NaN? || b.NaN? then NaN else Finite(a.value + b.value)
  }

  /** `a * b`: NaN when either operand is NaN. */
  function Mul(a: Number, b: Number): Number
  {
    if a.NaN? || b.NaN? then NaN else Finite(a.value * b.value)
  }

  /** `Math.max(a, c)` for a constant bound `c`: NaN stays NaN, otherwise the
      larger of the two. */
  function MaxWith(a: Number, c: real): (r: Number)
    ensures r.NaN? <==> a.NaN?
    ensures r.Finite? ==> r.value >= a.value && r.value >= c && (r.value == a.value || r.value == c)
  {
    match a
    case NaN => NaN
    case Finite(x) => Finite(if x >= c then x else c)
  }

  /** `Math.min(a, c)` for a constant bound `c`: NaN stays NaN, otherwise the
      smaller of the two. */
  function MinWith(a: Number, c: real): (r: Number)
    ensures r.NaN? <==> a.NaN?
    ensures r.Finite? ==> r.value <= a.value && r.value <= c && (r.value == a.value || r.value == c)
  {
    match a
    case NaN => NaN
    case Finite(x) => Finite(if x <= c then x else c)
  }

  /** `a < c`: false whenever `a` is NaN. */
  predicate Below(a: Number, c: real)
  {
    a.Finite? && a.value < c
  }

  /** A clamp applied to its own result changes nothing, and it is monotone. */
  lemma ClampsSaturate(a: Number, b: Number, c: real)
    ensures MaxWith(MaxWith(a, c), c) == MaxWith(a, c)
    ensures MinWith(MinWith(a, c), c) == MinWith(a, c)
    ensures a.Finite? && b.Finite? && a.value <= b.value ==>
              MaxWith(a, c).value <= MaxWith(b, c).value && MinWith(a, c).value <= MinWith(b, c).value
  {
  }
}

=== FILE: labels.dfy ===
/** The verdict vocabulary shared by the override rules and the label mapper.
    A single type holds every label the code can produce, so that "an
    override label never reaches the screen" is a statement about values. */
module Labels {

  datatype Label = Safe | Suspicious | Dangerous | Unverified | ForcedSafe

  datatype Color = Green | Orange | Red

  /** The three labels the probability mapper can produce. */
  predicate IsTierLabel(l: Label)
  {
    l == Safe || l == Suspicious || l == Dangerous
  }

  /** Rank of a tier label: higher is more severe. */
  function Severity(l: Label): nat
    requires IsTierLabel(l)
  {
    if l == Safe then 0 else if l == Suspicious then 1 else 2
  }
}

=== FILE: model_runner.dfy ===
/** The logistic-regression predictor, the older override function that sits
    beside it (not used by the scanner page), and the probability-to-label
    mapper. The logistic function itself is a parameter. */
module ModelRunner {

  import opened Options
  import opened Text
  import opened Url
  import opened JsNumber
  import opened Labels
  import FeatureSet
  import Overrides

  /** The exported model: feature names in vector order, one coefficient per
      feature, and the intercept. */
  datatype ModelJson = ModelJson(featureNames: seq<string>, coefficients: seq<real>, intercept: real)

  /** `feature_names.map(name => Number(f[name] || 0))`: the value recorded
      under each name, or 0 for a name the record lacks. */
  function BuildFeatureVector(names: seq<string>, f: map<string, real>): (v: seq<real>)
    ensures |v| == |names|
    ensures forall i :: 0 <= i < |names| ==> v[i] == (if names[i] in f then f[names[i]] else 0.0)
  {
    if |names| == 0 then []
    else
      var head := if names[0] in f then f[names[0]] else 0.0;
      var rest := BuildFeatureVector(names[1..], f);
      assert forall i :: 1 <= i < |names| ==> names[i] == names[1..][i - 1];
      [head] + rest
  }

  /** The vector of a full feature record in model order holds the 28
      features themselves, with nothing filled in as 0. */
  lemma {:induction false} VectorOfFeatureRecord(f: FeatureSet.Features)
    ensures var v := BuildFeatureVector(FeatureSet.FeatureNames, FeatureSet.ToMap(f));
      && |v| == 28
      && (forall i :: 0 <= i < 28 ==> v[i] == FeatureSet.ToMap(f)[FeatureSet.FeatureNames[i]])
      && v == FeatureSet.Values(f)
  {
    FeatureSet.ToMapHasEveryName(f);
  }

  /** `w[0]*v[0] + ... + w[n-1]*v[n-1]`, added left to right. */
  function WeightedSum(w: seq<real>, v: seq<real>, n: nat): real
    requires n <= |w| && n <= |v|
  {
    if n == 0 then 0.0 else WeightedSum(w, v, n - 1) + w[n - 1] * v[n - 1]
  }

  /** The intended linear score: defined when every vector entry has a
      coefficient; NaN otherwise, since `weights[i]` is `undefined`. */
  function Score(m: ModelJson, v: seq<real>): Number
  {
    if |m.coefficients| < |v| then NaN
    else Finite(m.intercept + WeightedSum(m.coefficients, v, |v|))
  }

  /** `weights[i]` as a number: NaN past the end of the list. */
  function WeightAt(w: seq<real>, i: nat): (r: Number)
    ensures r.Finite? <==> i < |w|
  {
    if i < |w| then Finite(w[i]) else NaN
  }

  /** The loop of `predictWithLogistic`: `score = intercept`, then
      `score += weights[i] * vector[i]` for each index of the vector. */
  method LinearScore(m: ModelJson, v: seq<real>) returns (score: Number)
    ensures score == Score(m, v)
    ensures score.NaN? <==> |m.coefficients| < |v|
  {
    score := Finite(m.intercept);
    var i := 0;
    while i < |v|
      invariant 0 <= i <= |v|
      invariant score.NaN? <==> i > |m.coefficients|
      invariant score.Finite? ==> score.value == m.intercept + WeightedSum(m.coefficients, v, i)
    {
      score := Add(score, Mul(WeightAt(m.coefficients, i), Finite(v[i])));
      i := i + 1;
    }
  }

  /** Raising one feature by `d` raises the weighted sum by `w[k] * d`, so a
      feature with a positive coefficient pushes the score up. */
  lemma {:induction false} WeightedSumUpdate(w: seq<real>, v: seq<real>, n: nat, k: nat, d: real)
    requires n <= |w| && n <= |v| && k < |v|
    ensures WeightedSum(w, v[k := v[k] + d], n)
              == WeightedSum(w, v, n) + (if k < n then w[k] * d else 0.0)
  {
    if n > 0 {
      WeightedSumUpdate(w, v, n - 1, k, d);
      assert v[k := v[k] + d][n - 1] == if n - 1 == k then v[k] + d else v[n - 1];
    }
  }

  /** `predictWithLogistic`: the logistic function applied to the score. */
  function PredictWithLogistic(m: ModelJson, f: map<string, real>, sigmoid: real -> real): (p: Number)
    ensures p.NaN? <==> |m.coefficients| < |m.featureNames|
    ensures p.Finite? ==> p.value == sigmoid(Score(m, BuildFeatureVector(m.featureNames, f)).value)
  {
    match Score(m, BuildFeatureVector(m.featureNames, f))
    case NaN => NaN
    case Finite(s) => Finite(sigmoid(s))
  }

  // ---------------------------------------------------------------------------
  // The older override function of the predictor module.
  // ---------------------------------------------------------------------------

  const LegacyTrusted: seq<string> := [
    "google.com", "www.google.com",
    "github.com", "www.github.com",
    "chatgpt.com", "www.chatgpt.com",
    "openai.com", "www.openai.com",
    "paypal.com", "www.paypal.com",
    "microsoft.com", "www.microsoft.com"]

  const LegacyDevSuffixes: seq<string> := ["vercel.app", "netlify.app", "github.io"]

  /** `extractHostname`: the lower-cased hostname, or "" when parsing throws. */
  function ExtractHostname(url: string, parse: Parser): (h: string)
    ensures parse(FixScheme(url)).None? ==> h == ""
    ensures parse(FixScheme(url)).Some? ==> |h| == |parse(FixScheme(url)).value.hostname|
  {
    match parse(FixScheme(url))
    case Some(p) => ToLower(p.hostname)
    case None => ""
  }

  /** `dev.some(d => h.endsWith(d))`: a plain suffix test, with no label
      boundary. */
  predicate LegacyIsDevHost(h: string)
  {
    exists i | 0 <= i < |LegacyDevSuffixes| :: EndsWith(h, LegacyDevSuffixes[i])
  }

  datatype LegacyOutcome = LegacyOutcome(prob: Number, message: Option<string>)

  function LegacyApplyDomainOverrides(url: string, prob: Number, parse: Parser): (o: LegacyOutcome)
    ensures o.prob.NaN? <==> prob.NaN?
    ensures prob.Finite? ==> o.prob.value <= prob.value
    ensures ExtractHostname(url, parse) in LegacyTrusted ==>
              o.message == Some("Trusted domain: " + ExtractHostname(url, parse))
              && (prob.Finite? ==> o.prob.value <= 0.15 && (o.prob.value == prob.value || o.prob.value == 0.15))
    ensures ExtractHostname(url, parse) !in LegacyTrusted && LegacyIsDevHost(ExtractHostname(url, parse)) ==>
              o.message == Some("Developer hosting: " + ExtractHostname(url, parse))
              && (prob.Finite? ==> o.prob.value <= 0.35 && (o.prob.value == prob.value || o.prob.value == 0.35))
    ensures o.message == None <==> ExtractHostname(url, parse) !in LegacyTrusted && !LegacyIsDevHost(ExtractHostname(url, parse))
    ensures o.message == None ==> o.prob == prob
  {
    var h := ExtractHostname(url, parse);
    if h in LegacyTrusted then LegacyOutcome(MinWith(prob, 0.15), Some("Trusted domain: " + h))
    else if LegacyIsDevHost(h) then LegacyOutcome(MinWith(prob, 0.35), Some("Developer hosting: " + h))
    else LegacyOutcome(prob, None)
  }

  /** The plain suffix test flags "myvercel.app", which the label-boundary
      test of the current override layer does not. */
  lemma LegacySuffixTestIsLooser()
    ensures LegacyIsDevHost("myvercel.app")
    ensures !Overrides.MatchesDomain("myvercel.app", "vercel.app")
  {
    assert "myvercel.app"[2..] == "vercel.app";
    assert EndsWith("myvercel.app", LegacyDevSuffixes[0]);
    assert "myvercel.app"[1] != '.';
  }

  /** The two override functions pull a developer-hosted URL in opposite
      directions: the older one lowers the probability to at most 0.35, the
      current one raises it to at least 0.40. */
  lemma LegacyAndCurrentDisagreeOnDevHosts(url: string, prob: Number, parse: Parser)
    requires prob.Finite?
    requires parse(FixScheme(url)).Some?
    requires Overrides.SelectRule(ToLower(parse(FixScheme(url)).value.hostname)) == Overrides.DevHosting
    requires LegacyIsDevHost(ToLower(parse(FixScheme(url)).value.hostname))
    requires ToLower(parse(FixScheme(url)).value.hostname) !in LegacyTrusted
    ensures LegacyApplyDomainOverrides(url, prob, parse).prob.value <= 0.35
    ensures Overrides.ApplyDomainOverrides(url, prob, parse).prob.value >= 0.40
  {
  }

  // ---------------------------------------------------------------------------
  // Probability to label.
  // ---------------------------------------------------------------------------

  datatype Mapped = Mapped(tier: Label, color: Color)

  /** The colour the mapper pairs with each tier label. */
  function TierColor(l: Label): Color
  {
    if l == Safe then Green else if l == Suspicious then Orange else Red
  }

  /** `mapProbToLabel`: below 0.40 is SAFE, below 0.70 SUSPICIOUS, and
      everything else, NaN included, DANGEROUS. */
  function MapProbToLabel(p: Number): (r: Mapped)
    ensures IsTierLabel(r.tier) && r.color == TierColor(r.tier)
    ensures r.tier == Safe <==> Below(p, 0.40)
    ensures r.tier == Suspicious <==> !Below(p, 0.40) && Below(p, 0.70)
    ensures r.tier == Dangerous <==> !Below(p, 0.70)
  {
    if Below(p, 0.40) then Mapped(Safe, Green)
    else if Below(p, 0.70) then Mapped(Suspicious, Orange)
    else Mapped(Dangerous, Red)
  }

  /** The cut-offs themselves belong to the higher tier, and NaN is treated
      as the most severe. */
  lemma MapProbToLabelBoundaries()
    ensures MapProbToLabel(Finite(0.40)).tier == Suspicious
    ensures MapProbToLabel(Finite(0.70)).tier == Dangerous
    ensures MapProbToLabel(Finite(0.0)).tier == Safe
    ensures MapProbToLabel(NaN) == Mapped(Dangerous, Red)
  {
  }

  /** Severity never decreases as the probability grows. */
  lemma MapProbToLabelMonotone(p: real, q: real)
    requires p <= q
    ensures Severity(MapProbToLabel(Finite(p)).tier) <= Severity(MapProbToLabel(Finite(q)).tier)
  {
  }
}

=== FILE: options.dfy ===
/** The optional-value wrapper used for parser results and nullable fields. */
module Options {

  /** `None` stands for JavaScript's `null`/a thrown parse error, or Python's `None`. */
  datatype Option<+T> = None | Some(value: T)
}

=== FILE: overrides.dfy ===
/** The domain override layer the scanner page uses: three ordered rules
    over the lower-cased hostname, each clamping the model's probability and
    attaching a label, a colour and a message; the first rule that applies
    wins. */
module Overrides {

  import opened Options
  import opened Text
  import opened Whitespace
  import opened Url
  import opened JsNumber
  import opened Labels
  import FeatureSet

  const TrustedDomains: seq<string> := [
    "google.com", "gmail.com", "youtube.com", "openai.com",
    "microsoft.com", "office.com", "windows.com", "apple.com",
    "icloud.com", "support.apple.com",
    "instagram.com", "facebook.com", "twitter.com", "x.com",
    "linkedin.com",
    "amazon.com", "amazon.in",
    "paypal.com", "stripe.com",
    "github.com", "gitlab.com",
    "stackoverflow.com",
    "gov.in", "india.gov.in",
    "abhinikfrontend.vercel.app",
    "catchthephish.vercel.app"]

  const DevHostSuffixes: seq<string> := [
    "vercel.app", "netlify.app", "github.io", "pages.dev",
    "web.app", "herokuapp.com", "glitch.me", "firebaseapp.com"]

  /** The project's own deployments, exempt from the developer-hosting rule. */
  const OwnProjectDomains: seq<string> := ["abhinikfrontend.vercel.app", "catchthephish.vercel.app"]

  predicate IsUrlDelimiter(c: char) { c == '/' || c == '?' || c == '#' }

  /** `split(/[/?#]/)[0]`: the text before the first '/', '?' or '#'. */
  function TakeUntilDelimiter(s: string): (r: string)
    ensures |r| <= |s| && r == s[..|r|]
    ensures forall i :: 0 <= i < |r| ==> !IsUrlDelimiter(r[i])
    ensures |r| < |s| ==> IsUrlDelimiter(s[|r|])
  {
    if |s| == 0 || IsUrlDelimiter(s[0]) then "" else [s[0]] + TakeUntilDelimiter(s[1..])
  }

  /** `replace(/^https?:\/\//, "")`: drop one leading "http://" or "https://". */
  function StripHttpPrefix(s: string): (r: string)
    ensures r == s || "http://" + r == s || "https://" + r == s
    ensures r == s <==> !StartsWith(s, "http://") && !StartsWith(s, "https://")
  {
    if StartsWith(s, "https://") then
      assert s[..8][4] == 's';
      assert !StartsWith(s, "http://") by { assert s[..7][4] == s[4]; }
      s[8..]
    else if StartsWith(s, "http://") then s[7..]
    else s
  }

  /** The hostname `_getHostname` falls back to when the URL parser throws.
      `fixed` is the input after the scheme fix, because the function has
      already reassigned its parameter when the parser throws. */
  function FallbackHostname(fixed: string): string
  {
    ToLower(TakeUntilDelimiter(StripHttpPrefix(JsTrim(fixed))))
  }

  /** The fallback hostname is no longer than the URL and holds no delimiter
      and no upper-case letter. */
  lemma FallbackHostnameShape(fixed: string)
    ensures |FallbackHostname(fixed)| <= |fixed|
    ensures forall i :: 0 <= i < |FallbackHostname(fixed)| ==>
              !IsUrlDelimiter(FallbackHostname(fixed)[i]) && !IsAsciiUpper(FallbackHostname(fixed)[i])
  {
  }

  /** `_getHostname`: the parser's hostname, lower-cased, or the fallback. */
  function GetHostname(url: string, parse: Parser): string
  {
    var fixed := FixScheme(url);
    match parse(fixed)
    case Some(p) => ToLower(p.hostname)
    case None => FallbackHostname(fixed)
  }

  /** For a URL typed without a scheme, the fallback undoes the scheme fix:
      the hostname is the lower-cased text before the first delimiter. */
  lemma {:induction false} FallbackUndoesSchemeFix(s: string)
    requires !HasSchemePrefix(s)
    requires |s| == 0 || !IsJsSpace(s[|s| - 1])
    ensures FallbackHostname(FixScheme(s)) == ToLower(TakeUntilDelimiter(s))
  {
    var fixed := "http://" + s;
    HttpPrefixedIsTrimmed(s);
    HttpPrefixStripped(s);
    assert FallbackHostname(fixed) == ToLower(TakeUntilDelimiter(StripHttpPrefix(JsTrim(fixed))));
  }

  lemma HttpPrefixedIsTrimmed(s: string)
    requires |s| == 0 || !IsJsSpace(s[|s| - 1])
    ensures JsTrim("http://" + s) == "http://" + s
  {
  }

  lemma HttpPrefixStripped(s: string)
    ensures StripHttpPrefix("http://" + s) == s
  {
    var fixed := "http://" + s;
    var r := StripHttpPrefix(fixed);
    assert fixed[..7] == "http://";
    assert fixed[4] != ("https://" + r)[4];
  }

  /** `host === d || host.endsWith("." + d)`. */
  predicate MatchesDomain(host: string, d: string)
  {
    host == d || EndsWith(host, "." + d)
  }

  /** `_endsWithAny`: some listed domain matches at a label boundary. */
  predicate EndsWithAny(host: string, list: seq<string>)
  {
    exists i | 0 <= i < |list| :: MatchesDomain(host, list[i])
  }

  /** A match is either the domain itself or ends with a dot followed by it,
      so "evilgoogle.com" does not match "google.com". */
  lemma MatchIsAtLabelBoundary(host: string, d: string)
    requires MatchesDomain(host, d) && host != d
    ensures |host| > |d| && host[|host| - |d| - 1] == '.' && host[|host| - |d|..] == d
  {
  }

  lemma LookalikeDoesNotMatch()
    ensures !MatchesDomain("evilgoogle.com", "google.com")
    ensures MatchesDomain("mail.google.com", "google.com")
  {
  }

  /** `/^\d{1,3}(\.\d{1,3}){3}$/`: four dot-separated groups of one to three
      digits. */
  predicate DottedQuad(h: string)
  {
    var parts := Split(h, '.');
    |parts| == 4 && forall i :: 0 <= i < 4 ==> 1 <= |parts[i]| <= 3 && AllDigits(parts[i])
  }

  /** A dotted quad is made of digits and dots only. */
  lemma DottedQuadHasNoLetter(h: string)
    requires DottedQuad(h)
    ensures |h| > 0
    ensures forall k :: 0 <= k < |h| ==> IsDigit(h[k]) || h[k] == '.'
  {
    var parts := Split(h, '.');
    SplitJoin(h, '.');
    JoinOfDigits(parts, '.');
    assert Join(parts, '.') == parts[0] + ['.'] + Join(parts[1..], '.');
  }

  /** A hostname without letters matches no domain that starts with one. */
  lemma NoLetterNoMatch(h: string, list: seq<string>)
    requires forall k :: 0 <= k < |h| ==> !IsAsciiLetter(h[k])
    requires forall i :: 0 <= i < |list| ==> |list[i]| > 0 && IsAsciiLetter(list[i][0])
    ensures !EndsWithAny(h, list)
  {
    forall i | 0 <= i < |list| ensures !MatchesDomain(h, list[i]) {
      var d := list[i];
      if |d| + 1 <= |h| {
        assert h[|h| - |d|] == h[|h| - |d| - 1..][1];
      }
    }
  }

  /** The rule `applyDomainOverrides` applies. */
  datatype Rule = DevHosting | TrustedDomain | IpAddress | NoRule

  predicate IsDevHosted(h: string)
  {
    EndsWithAny(h, DevHostSuffixes) && !EndsWithAny(h, OwnProjectDomains)
  }

  /** The three rules in source order; the first that applies is selected. */
  function SelectRule(h: string): Rule
  {
    if IsDevHosted(h) then DevHosting
    else if EndsWithAny(h, TrustedDomains) then TrustedDomain
    else if DottedQuad(h) then IpAddress
    else NoRule
  }

  /** What the function returns: the (possibly clamped) probability and the
      label, colour and message it attaches (`null` is `None`). */
  datatype Outcome = Outcome(prob: Number, labelOverride: Option<Label>, color: Option<Color>, message: Option<string>)

  const DevHostingMessage: string :=
    "Hosted on a developer platform. This may be a legitimate project or a phishing page. Treat with caution."

  const IpAddressMessage: string := "IP-based URLs are commonly used in phishing attacks."

  function TrustedMessage(h: string): string
  {
    "Trusted domain detected: " + h + "."
  }

  /** The effect of one rule on the probability, with the label, colour and
      message it attaches. */
  function ApplyRule(rule: Rule, h: string, prob: Number): (o: Outcome)
    ensures o.prob.NaN? <==> prob.NaN?
    ensures rule == DevHosting ==>
              o.labelOverride == Some(Unverified) && o.color == Some(Orange) && o.message == Some(DevHostingMessage)
              && (prob.Finite? ==> o.prob.value >= 0.40 && o.prob.value >= prob.value && (o.prob.value == prob.value || o.prob.value == 0.40))
    ensures rule == TrustedDomain ==>
              o.labelOverride == Some(ForcedSafe) && o.color == Some(Green) && o.message == Some(TrustedMessage(h))
              && (prob.Finite? ==> o.prob.value <= 0.15 && o.prob.value <= prob.value && (o.prob.value == prob.value || o.prob.value == 0.15))
    ensures rule == IpAddress ==>
              o.labelOverride == None && o.color == Some(Red) && o.message == Some(IpAddressMessage)
              && (prob.Finite? ==> o.prob.value >= 0.85 && o.prob.value >= prob.value && (o.prob.value == prob.value || o.prob.value == 0.85))
    ensures rule == NoRule <==> o.message == None
    ensures rule == NoRule ==> o == Outcome(prob, None, None, None)
    ensures prob.Finite? && o.prob.value != prob.value ==> o.prob.value in {0.40, 0.15, 0.85}
  {
    match rule
    case DevHosting => Outcome(MaxWith(prob, 0.40), Some(Unverified), Some(Orange), Some(DevHostingMessage))
    case TrustedDomain => Outcome(MinWith(prob, 0.15), Some(ForcedSafe), Some(Green), Some(TrustedMessage(h)))
    case IpAddress => Outcome(MaxWith(prob, 0.85), None, Some(Red), Some(IpAddressMessage))
    case NoRule => Outcome(prob, None, None, None)
  }

  /** `applyDomainOverrides(url, prob)` of the scanner page. */
  function ApplyDomainOverrides(url: string, prob: Number, parse: Parser): (o: Outcome)
    ensures o.prob.NaN? <==> prob.NaN?
    ensures SelectRule(GetHostname(url, parse)) == DevHosting ==>
              && o.labelOverride == Some(Unverified) && o.color == Some(Orange)
              && (prob.Finite? ==> o.prob.value >= 0.40 && o.prob.value >= prob.value && (o.prob.value == prob.value || o.prob.value == 0.40))
    ensures SelectRule(GetHostname(url, parse)) == TrustedDomain ==>
              && o.labelOverride == Some(ForcedSafe) && o.color == Some(Green)
              && o.message == Some("Trusted domain detected: " + GetHostname(url, parse) + ".")
              && (prob.Finite? ==> o.prob.value <= 0.15 && o.prob.value <= prob.value && (o.prob.value == prob.value || o.prob.value == 0.15))
    ensures SelectRule(GetHostname(url, parse)) == IpAddress ==>
              && o.labelOverride == None && o.color == Some(Red)
              && (prob.Finite? ==> o.prob.value >= 0.85 && o.prob.value >= prob.value && (o.prob.value == prob.value || o.prob.value == 0.85))
    ensures SelectRule(GetHostname(url, parse)) == NoRule <==> o.message == None
    ensures o.message == None ==> o == Outcome(prob, None, None, None)
    ensures prob.Finite? && o.prob.value != prob.value ==> o.prob.value in {0.40, 0.15, 0.85}
  {
    var h := GetHostname(url, parse);
    ApplyRule(SelectRule(h), h, prob)
  }

  /** Applying the overrides to their own output probability selects the
      same rule and changes nothing further: the clamps saturate. */
  lemma {:induction false} OverridesIdempotent(url: string, prob: Number, parse: Parser)
    ensures ApplyDomainOverrides(url, ApplyDomainOverrides(url, prob, parse).prob, parse)
              == ApplyDomainOverrides(url, prob, parse)
  {
  }

  /** A higher model probability never yields a lower overridden one. */
  lemma {:induction false} OverridesMonotone(url: string, p: Number, q: Number, parse: Parser)
    requires p.Finite? && q.Finite? && p.value <= q.value
    ensures ApplyDomainOverrides(url, p, parse).prob.value <= ApplyDomainOverrides(url, q, parse).prob.value
  {
  }

  /** The project's own site and its subdomains skip the developer-hosting
      rule and are treated as trusted. */
  lemma OwnSiteIsTrusted(h: string)
    requires MatchesDomain(h, "catchthephish.vercel.app")
    ensures SelectRule(h) == TrustedDomain
  {
    assert MatchesDomain(h, OwnProjectDomains[1]);
    assert MatchesDomain(h, TrustedDomains[25]);
  }

  /** Any other subdomain of a developer platform is dev-hosted. */
  lemma OtherVercelSiteIsDevHosted(h: string)
    requires EndsWith(h, ".vercel.app")
    requires !MatchesDomain(h, "abhinikfrontend.vercel.app") && !MatchesDomain(h, "catchthephish.vercel.app")
    ensures SelectRule(h) == DevHosting
  {
    assert MatchesDomain(h, DevHostSuffixes[0]);
    assert !EndsWithAny(h, OwnProjectDomains) by {
      assert forall i :: 0 <= i < 2 ==> OwnProjectDomains[i] in {"abhinikfrontend.vercel.app", "catchthephish.vercel.app"};
    }
  }

  /** A dotted-quad hostname matches no listed domain, so it always reaches
      the IP rule. */
  lemma DottedQuadSelectsIpRule(h: string)
    requires DottedQuad(h)
    ensures SelectRule(h) == IpAddress
    ensures FeatureSet.DigitsAndDots(h)
  {
    DottedQuadHasNoLetter(h);
    NoLetterNoMatch(h, DevHostSuffixes);
    NoLetterNoMatch(h, TrustedDomains);
  }
}

=== FILE: patterns.dfy ===
/** The character classes and regular-expression tests of the feature
    extractors, each written as a direct predicate over the string. A regex
    `test`/`search` succeeds when some position starts a match; each predicate
    below says exactly that, with the shortest match the regex allows (a
    longer match always contains a shortest one). */
module Patterns {

  import opened Text

  predicate IsDot(c: char) { c == '.' }

  predicate IsHyphen(c: char) { c == '-' }

  predicate IsSlash(c: char) { c == '/' }

  /** The class `[@%:=?&+$,;_~]` used by both extractors. */
  predicate IsSpecialChar(c: char)
  {
    c == '@' || c == '%' || c == ':' || c == '=' || c == '?' || c == '&'
    || c == '+' || c == '$' || c == ',' || c == ';' || c == '_' || c == '~'
  }

  /** Characters a JavaScript `.` does not match: the line terminators. */
  predicate IsJsLineTerminator(c: char)
  {
    c == '\n' || c == '\r' || c == '\U{2028}' || c == '\U{2029}'
  }

  /** The only character a Python `.` does not match (no DOTALL flag). */
  predicate IsPyNewline(c: char) { c == '\n' }

  /** `(.)\1\1` matches at `i`: three equal characters that `.` accepts. */
  predicate TripleAt(s: string, i: int, dotRejects: char -> bool)
  {
    0 <= i && i + 2 < |s| && s[i] == s[i + 1] && s[i + 1] == s[i + 2] && !dotRejects(s[i])
  }

  predicate HasTriple(s: string, dotRejects: char -> bool)
  {
    exists i | 0 <= i < |s| :: TripleAt(s, i, dotRejects)
  }

  /** `%[0-9A-Fa-f]{2}` matches at `i`. */
  predicate EncodedAt(s: string, i: int)
  {
    0 <= i && i + 2 < |s| && s[i] == '%' && IsHexDigit(s[i + 1]) && IsHexDigit(s[i + 2])
  }

  predicate HasEncodedChar(s: string)
  {
    exists i | 0 <= i < |s| :: EncodedAt(s, i)
  }

  predicate IsEmailLocalChar(c: char)
  {
    IsAsciiLetter(c) || IsDigit(c) || c == '.' || c == '_' || c == '%' || c == '+' || c == '-'
  }

  predicate IsEmailDomainChar(c: char)
  {
    IsAsciiLetter(c) || IsDigit(c) || c == '.' || c == '-'
  }

  /** `[A-Za-z0-9._%+-]+@[A-Za-z0-9.-]+\.[A-Za-z]{2,}` matches with its '@' at
      `at` and the '.' before the top-level part at `dot`. */
  predicate EmailAt(s: string, at: int, dot: int)
  {
    && 1 <= at && at + 1 < dot && dot + 2 < |s|
    && IsEmailLocalChar(s[at - 1]) && s[at] == '@'
    && (forall k :: at < k < dot ==> IsEmailDomainChar(s[k]))
    && s[dot] == '.' && IsAsciiLetter(s[dot + 1]) && IsAsciiLetter(s[dot + 2])
  }

  predicate HasEmail(s: string)
  {
    exists at, dot | 0 <= at < |s| && 0 <= dot < |s| :: EmailAt(s, at, dot)
  }

  /** `n` hexadecimal characters start at `i`. */
  predicate HexRunAt(s: string, i: int, n: nat)
  {
    0 <= i && i + n <= |s| && forall k :: i <= k < i + n ==> IsHexDigit(s[k])
  }

  /** `[0-9a-fA-F]{6,}`. */
  predicate HasHexRun(s: string)
  {
    exists i | 0 <= i < |s| :: HexRunAt(s, i, 6)
  }

  /** The canonical UUID shape 8-4-4-4-12 starts at `i`. */
  predicate CanonicalUuidAt(s: string, i: int)
  {
    && HexRunAt(s, i, 8) && i + 36 <= |s|
    && s[i + 8] == '-' && HexRunAt(s, i + 9, 4)
    && s[i + 13] == '-' && HexRunAt(s, i + 14, 4)
    && s[i + 18] == '-' && HexRunAt(s, i + 19, 4)
    && s[i + 23] == '-' && HexRunAt(s, i + 24, 12)
  }

  /** `[0-9a-fA-F]{8,}[-_][0-9a-fA-F]{4,}` starts at `i`. */
  predicate LooseUuidAt(s: string, i: int)
  {
    HexRunAt(s, i, 8) && i + 8 < |s| && (s[i + 8] == '-' || s[i + 8] == '_') && HexRunAt(s, i + 9, 4)
  }

  predicate HasUuid(s: string)
  {
    (exists i | 0 <= i < |s| :: CanonicalUuidAt(s, i)) || (exists i | 0 <= i < |s| :: LooseUuidAt(s, i))
  }

  /** Either UUID shape begins with at least eight hexadecimal characters, so
      a string with a UUID always has a six-character hexadecimal run. */
  lemma UuidHasHexRun(s: string)
    requires HasUuid(s)
    ensures HasHexRun(s)
  {
    var i: int;
    if exists j | 0 <= j < |s| :: CanonicalUuidAt(s, j) {
      i :| 0 <= i < |s| && CanonicalUuidAt(s, i);
    } else {
      i :| 0 <= i < |s| && LooseUuidAt(s, i);
    }
    assert HexRunAt(s, i, 8);
    assert HexRunAt(s, i, 6);
  }

  const LoginKeywords: seq<string> := ["login", "signin", "account", "verify", "secure", "update", "confirm", "auth"]

  const FinanceKeywords: seq<string> := ["bank", "paypal", "wallet", "payment", "invoice", "credit", "card", "billing"]

  /** A case-insensitive alternation of lower-case keywords, such as
      `/(login|signin|...)/i`, finds a match. */
  predicate HasKeyword(s: string, keywords: seq<string>)
  {
    exists k | 0 <= k < |keywords| :: Contains(ToLower(s), keywords[k])
  }
}

=== FILE: text.dfy ===
/** Character classes and string helpers shared by the feature extractors, the
    override rules and the explanation text. Strings are `seq<char>`; only the
    ASCII behaviour of the JavaScript and Python string functions is modelled. */
module Text {

  predicate IsDigit(c: char) { '0' <= c <= '9' }

  predicate IsHexDigit(c: char) { IsDigit(c) || 'a' <= c <= 'f' || 'A' <= c <= 'F' }

  predicate IsAsciiLetter(c: char) { 'a' <= c <= 'z' || 'A' <= c <= 'Z' }

  predicate IsAsciiUpper(c: char) { 'A' <= c <= 'Z' }

  predicate AllDigits(s: string) { forall i :: 0 <= i < |s| ==> IsDigit(s[i]) }

  /** `toLowerCase` restricted to ASCII letters. */
  function LowerChar(c: char): char
  {
    if IsAsciiUpper(c) then (c as int + 32) as char else c
  }

  function ToLower(s: string): (r: string)
    ensures |r| == |s|
    ensures forall i :: 0 <= i < |s| ==> !IsAsciiUpper(r[i])
  {
    seq(|s|, i requires 0 <= i < |s| => LowerChar(s[i]))
  }

  /** Number of characters of `s` satisfying `p` (a global regex `match(...).length`). */
  function Count(s: string, p: char -> bool): (n: nat)
    ensures n <= |s|
  {
    if |s| == 0 then 0 else (if p(s[0]) then 1 else 0) + Count(s[1..], p)
  }

  lemma {:induction false} CountConcat(a: string, b: string, p: char -> bool)
    ensures Count(a + b, p) == Count(a, p) + Count(b, p)
  {
    if |a| == 0 {
      assert a + b == b;
    } else {
      assert (a + b)[1..] == a[1..] + b;
      CountConcat(a[1..], b, p);
    }
  }

  /** Counting over three consecutive slices adds up to counting over the whole. */
  lemma {:induction false} CountSlices(s: string, a: nat, b: nat, p: char -> bool)
    requires a <= b <= |s|
    ensures Count(s, p) == Count(s[..a], p) + Count(s[a..b], p) + Count(s[b..], p)
  {
    assert s[..b] == s[..a] + s[a..b];
    assert s == s[..b] + s[b..];
    CountConcat(s[..b], s[b..], p);
    CountConcat(s[..a], s[a..b], p);
  }

  lemma {:induction false} CountNone(s: string, p: char -> bool)
    requires forall i :: 0 <= i < |s| ==> !p(s[i])
    ensures Count(s, p) == 0
  {
    if |s| > 0 {
      CountNone(s[1..], p);
    }
  }

  predicate StartsWith(s: string, prefix: string)
  {
    |prefix| <= |s| && s[..|prefix|] == prefix
  }

  predicate EndsWith(s: string, suffix: string)
  {
    |suffix| <= |s| && s[|s| - |suffix|..] == suffix
  }

  predicate OccursAt(s: string, sub: string, i: int)
  {
    0 <= i && i + |sub| <= |s| && s[i..i + |sub|] == sub
  }

  /** `String.prototype.includes` / Python `in` on strings. */
  predicate Contains(s: string, sub: string)
  {
    exists i | 0 <= i <= |s| :: OccursAt(s, sub, i)
  }

  /** `s.split(c)`: the pieces between the separators, empty pieces included. */
  function Split(s: string, c: char): (parts: seq<string>)
    ensures |parts| >= 1
  {
    if |s| == 0 then [""]
    else
      var rest := Split(s[1..], c);
      if s[0] == c then [""] + rest else [[s[0]] + rest[0]] + rest[1..]
  }

  /** The inverse of `Split`: the pieces glued back with the separator. */
  function Join(parts: seq<string>, c: char): string
    requires |parts| >= 1
  {
    if |parts| == 1 then parts[0] else parts[0] + [c] + Join(parts[1..], c)
  }

  /** `filter(Boolean)` on a list of strings: the non-empty ones, in order. */
  function NonEmpty(parts: seq<string>): (r: seq<string>)
    ensures |r| <= |parts|
    ensures forall i :: 0 <= i < |r| ==> |r[i]| > 0
    ensures forall i :: 0 <= i < |r| ==> r[i] in parts
  {
    if |parts| == 0 then []
    else if |parts[0]| == 0 then NonEmpty(parts[1..])
    else [parts[0]] + NonEmpty(parts[1..])
  }

  lemma JoinSeparatorHead(rest: seq<string>, c: char)
    requires |rest| >= 1
    ensures Join([""] + rest, c) == [c] + Join(rest, c)
  {
  }

  lemma JoinExtendedHead(x: char, rest: seq<string>, c: char)
    requires |rest| >= 1
    ensures Join([[x] + rest[0]] + rest[1..], c) == [x] + Join(rest, c)
  {
  }

  /** Splitting then joining gives back the original string. */
  lemma {:induction false} SplitJoin(s: string, c: char)
    ensures Join(Split(s, c), c) == s
  {
    if |s| > 0 {
      var rest := Split(s[1..], c);
      SplitJoin(s[1..], c);
      if s[0] == c {
        JoinSeparatorHead(rest, c);
      } else {
        JoinExtendedHead(s[0], rest, c);
      }
      assert s == [s[0]] + s[1..];
    }
  }

  /** No piece contains the separator. With `SplitJoin` this pins the
      pieces down: they are the maximal separator-free runs of `s`. */
  lemma {:induction false} SplitNoSeparator(s: string, c: char)
    ensures forall i :: 0 <= i < |Split(s, c)| ==> c !in Split(s, c)[i]
  {
    if |s| > 0 {
      SplitNoSeparator(s[1..], c);
      var rest := Split(s[1..], c);
      var parts := Split(s, c);
      if s[0] == c {
        assert forall i :: 1 <= i < |parts| ==> parts[i] == rest[i - 1];
      } else {
        assert parts[0] == [s[0]] + rest[0];
        assert forall i :: 1 <= i < |parts| ==> parts[i] == rest[i];
      }
    }
  }

  /** Every character of a piece of `Split(s, c)` is a character of `s`. */
  lemma {:induction false} SplitPartChars(s: string, c: char)
    ensures forall i, k :: 0 <= i < |Split(s, c)| && 0 <= k < |Split(s, c)[i]| ==> Split(s, c)[i][k] in s
  {
    if |s| > 0 {
      SplitPartChars(s[1..], c);
      var rest := Split(s[1..], c);
      assert forall x :: x in s[1..] ==> x in s;
      if s[0] != c {
        var parts := Split(s, c);
        assert parts[0] == [s[0]] + rest[0];
        assert forall i :: 1 <= i < |parts| ==> parts[i] == rest[i];
      }
    }
  }

  /** Every character of a piece of `Split(s, c)` is a character of `s`,
      so a piece is never longer than `s`. */
  lemma {:induction false} SplitPartLength(s: string, c: char, i: nat)
    requires i < |Split(s, c)|
    ensures |Split(s, c)[i]| <= |s|
  {
    if |s| > 0 {
      var rest := Split(s[1..], c);
      if s[0] == c {
        if i > 0 {
          SplitPartLength(s[1..], c, i - 1);
        }
      } else {
        SplitPartLength(s[1..], c, i);
      }
    }
  }

  /** When every piece is made of digits, the joined string holds only digits
      and separators. */
  lemma {:induction false} JoinOfDigits(parts: seq<string>, c: char)
    requires |parts| >= 1
    requires forall i :: 0 <= i < |parts| ==> AllDigits(parts[i])
    ensures forall k :: 0 <= k < |Join(parts, c)| ==> IsDigit(Join(parts, c)[k]) || Join(parts, c)[k] == c
  {
    if |parts| > 1 {
      JoinOfDigits(parts[1..], c);
      var tail := Join(parts[1..], c);
      assert Join(parts, c) == parts[0] + [c] + tail;
      forall k | 0 <= k < |Join(parts, c)|
        ensures IsDigit(Join(parts, c)[k]) || Join(parts, c)[k] == c
      {
        if k < |parts[0]| {
          assert Join(parts, c)[k] == parts[0][k];
        } else if k > |parts[0]| {
          assert Join(parts, c)[k] == tail[k - |parts[0]| - 1];
        }
      }
    }
  }
}

=== FILE: url.dfy ===
/** The structural view of a URL that both extractors and the override layer
    obtain from a URL parser, and the "add a scheme if missing" step they all
    perform first. The parsers themselves (WHATWG `URL` in the browser,
    `urllib.parse.urlparse` in the training script) are not modelled: every
    operation that needs one receives it as a `Parser` argument. */
module Url {

  import opened Options
  import opened Text

  /** What a parser reports about a URL. `scheme` carries no trailing ':'
      and `query` carries no leading '?'. */
  datatype ParsedUrl = ParsedUrl(scheme: string, hostname: string, path: string, query: string)

  /** A URL parser; `None` means it rejected the input (threw). */
  type Parser = string -> Option<ParsedUrl>

  /** The WHATWG `search` attribute and Python's `('?' + p.query) if p.query else ''`
      are the same text: empty, or '?' followed by a non-empty query. */
  function QueryWithMark(u: ParsedUrl): (q: string)
    ensures |q| == (if u.query == "" then 0 else |u.query| + 1)
  {
    if u.query == "" then "" else "?" + u.query
  }

  /** Length of the longest prefix of `s` made of ASCII letters. */
  function LetterRun(s: string): (n: nat)
    ensures n <= |s|
    ensures forall i :: 0 <= i < n ==> IsAsciiLetter(s[i])
    ensures n < |s| ==> !IsAsciiLetter(s[n])
  {
    if |s| > 0 && IsAsciiLetter(s[0]) then 1 + LetterRun(s[1..]) else 0
  }

  /** The regular expression `^[a-zA-Z]+:\/\/`: one or more letters and then "://". */
  predicate HasSchemePrefix(s: string)
  {
    var n := LetterRun(s);
    n >= 1 && StartsWith(s[n..], "://")
  }

  /** Prefix "http://" unless the string already starts with a scheme. */
  function FixScheme(s: string): string
  {
    if HasSchemePrefix(s) then s else "http://" + s
  }

  /** The fixed URL always has a scheme and ends with the original text, so
      fixing it again changes nothing. */
  lemma FixSchemeIdempotent(s: string)
    ensures HasSchemePrefix(FixScheme(s))
    ensures |FixScheme(s)| >= |s| && FixScheme(s)[|FixScheme(s)| - |s|..] == s
    ensures FixScheme(FixScheme(s)) == FixScheme(s)
  {
    if !HasSchemePrefix(s) {
      var r := "http://" + s;
      assert r[..4] == "http" && r[4] == ':';
      assert LetterRun(r) == 4;
      assert r[4..][..3] == "://";
    }
  }

  /** What `new URL("http://invalid-url.xyz")` reports; the browser extractor
      parses this instead of a URL it cannot parse. */
  const BrowserFallback: ParsedUrl := ParsedUrl("http", "invalid-url.xyz", "/", "")

  /** What `urlparse('http://invalid-url.xyz')` reports; the training script
      parses this instead of a URL whose parse raises. */
  const ScriptFallback: ParsedUrl := ParsedUrl("http", "invalid-url.xyz", "", "")
}

=== FILE: whitespace.dfy ===
/** Trimming of surrounding whitespace, as done by JavaScript's `trim()` and
    Python's `str.strip()`. The two languages disagree on which characters
    are whitespace, so each gets its own character class. */
module Whitespace {

  import Text

  /** ECMAScript WhiteSpace and LineTerminator code points (what `trim` removes). */
  predicate IsJsSpace(c: char)
  {
    || ('\t' <= c <= '\r')
    || c == ' ' || c == '\U{A0}' || c == '\U{1680}'
    || ('\U{2000}' <= c <= '\U{200A}')
    || c == '\U{2028}' || c == '\U{2029}' || c == '\U{202F}' || c == '\U{205F}'
    || c == '\U{3000}' || c == '\U{FEFF}'
  }

  /** Characters for which Python's `str.isspace()` holds (what `strip()` removes). */
  predicate IsPySpace(c: char)
  {
    || ('\t' <= c <= '\r')
    || ('\U{1C}' <= c <= '\U{1F}')
    || c == ' ' || c == '\U{85}' || c == '\U{A0}' || c == '\U{1680}'
    || ('\U{2000}' <= c <= '\U{200A}')
    || c == '\U{2028}' || c == '\U{2029}' || c == '\U{202F}' || c == '\U{205F}'
    || c == '\U{3000}'
  }

  /** Length of the longest prefix of `s` made of `space` characters. */
  function LeadingCount(s: string, space: char -> bool): (n: nat)
    ensures n <= |s|
    ensures forall i :: 0 <= i < n ==> space(s[i])
    ensures n < |s| ==> !space(s[n])
  {
    if |s| > 0 && space(s[0]) then 1 + LeadingCount(s[1..], space) else 0
  }

  /** Length of the longest suffix of `s` made of `space` characters. */
  function TrailingCount(s: string, space: char -> bool): (n: nat)
    ensures n <= |s|
    ensures forall i :: |s| - n <= i < |s| ==> space(s[i])
    ensures n < |s| ==> !space(s[|s| - n - 1])
  {
    if |s| > 0 && space(s[|s| - 1]) then 1 + TrailingCount(s[..|s| - 1], space) else 0
  }

  /** `s` without its leading and trailing `space` characters: a contiguous
      slice of `s` that starts after the leading run, whose ends are not
      spaces, and after which only spaces follow. */
  function Trim(s: string, space: char -> bool): (t: string)
    ensures |t| == 0 || (!space(t[0]) && !space(t[|t| - 1]))
    ensures LeadingCount(s, space) + |t| <= |s|
    ensures t == s[LeadingCount(s, space)..LeadingCount(s, space) + |t|]
    ensures forall i :: LeadingCount(s, space) + |t| <= i < |s| ==> space(s[i])
  {
    var rest := s[LeadingCount(s, space)..];
    rest[..|rest| - TrailingCount(rest, space)]
  }

  function JsTrim(s: string): string { Trim(s, IsJsSpace) }

  function PyStrip(s: string): string { Trim(s, IsPySpace) }

  /** The trimmed string is empty exactly when every character is a space. */
  lemma {:induction false} TrimEmptyIff(s: string, space: char -> bool)
    ensures Trim(s, space) == [] <==> forall i :: 0 <= i < |s| ==> space(s[i])
  {
  }

  /** Trimming twice is the same as trimming once. */
  lemma {:induction false} TrimIdempotent(s: string, space: char -> bool)
    ensures Trim(Trim(s, space), space) == Trim(s, space)
  {
  }

  /** Trimming never changes how many characters of a class that contains no
      space there are. */
  lemma {:induction false} CountTrim(s: string, space: char -> bool, p: char -> bool)
    requires forall i :: 0 <= i < |s| && space(s[i]) ==> !p(s[i])
    ensures Text.Count(Trim(s, space), p) == Text.Count(s, p)
  {
    var a := LeadingCount(s, space);
    var t := Trim(s, space);
    var b := a + |t|;
    forall i | 0 <= i < a ensures !p(s[..a][i]) {
      assert s[..a][i] == s[i] && space(s[i]);
    }
    forall i | 0 <= i < |s| - b ensures !p(s[b..][i]) {
      assert s[b..][i] == s[b + i] && space(s[b + i]);
    }
    Text.CountNone(s[..a], p);
    Text.CountNone(s[b..], p);
    Text.CountSlices(s, a, b, p);
    assert t == s[a..b];
    assert Text.Count(t, p) == Text.Count(s[a..b], p);
  }

  /** Trimming only removes characters: the trimmed string is never longer,
      and it has the same length exactly when nothing surrounds it. */
  lemma {:induction false} TrimLength(s: string, space: char -> bool)
    ensures |Trim(s, space)| <= |s|
    ensures |Trim(s, space)| == |s| <==> Trim(s, space) == s
    ensures |s| > 0 && !space(s[0]) && !space(s[|s| - 1]) ==> Trim(s, space) == s
  {
  }
}
